=== FILE: README.md ===
# Clinic appointment scheduling, modelled in Dafny

This project models the scheduling core of a Spring clinic-management back end
(doctors, patients, admins, appointments and prescriptions). It covers:

- the slot-time normaliser (`normalizeSlot` / `normalizeHHmm`), the
  morning/afternoon classifier and the slot ordering;
- a doctor's free slots on a date;
- the booking arbiter: book, reschedule, cancel and change status over an
  appointment table;
- the doctor and patient searches and the query dispatch that picks them;
- the role check on tokens, and the login checks for doctors, admins and patients;
- the one-prescription-per-appointment guard;
- the two controller endpoints that compose these services.

**How things are represented:**
- Tables are id-keyed maps held in `Tables.Table` objects that the service
  methods update in place.
- Repository queries are functions that return the matching ids: first in id
  order (a table scan), then, where the query sorts, stably sorted by start time.
- A single-result finder (`findByEmail`, `findByUsername`, ...) returns a
  `Lookup`: no row, exactly one row, or several rows. Spring throws in the
  last case.
- Instants are integer nanoseconds on the local time line. The date of an
  instant is `t / NANOS_PER_DAY`, and `"HH:mm"` is the hour and minute within
  that day.
- The JWT parser is a parameter (`parse: string -> Option<string>`). It fails
  on a bad signature, malformed text or expiry. The clock is the parameter
  `nowMillis`.

**Modules, one per source file or concern:**
- `Wrappers`: the `Option` type.
- `JavaText`: `trim`, case mapping, `contains`, `compareTo`.
- `Tables`: id-keyed tables, `Select` and `FindUnique`.
- `Sorting`: a stable insertion sort on a `before` test.
- `Streams`: an order-keeping filter.
- `SlotTime`: slot texts.
- `Models`: entities and the `Appointment` accessors.
- `AppointmentRepo`, `DoctorRepo` and `Accounts`: the repositories.
- `Tokens`: TokenService.
- `DoctorServices`, `Booking`, `PatientServices`, `Prescriptions` and
  `CentralService`: the services.
- `Controllers`: the two controller endpoints.

Where the specification of the system and its code disagree, the model follows
the code, with two exceptions: the corrections listed under "## Findings" (the
"h:mmAM/PM" slot parse and the reschedule that commits a refused doctor
change) replace the code as written in the rest of the model, and the
as-written behaviour is kept beside them for comparison. The other
disagreements:

- **No full non-overlap guarantee.** The specification promises that no two
  appointments of a doctor overlap. The code only checks forward: a slot at
  `t` is refused when an appointment of the doctor *starts* in `[t, t + 1h)`.
  An appointment that started half an hour earlier is not seen
  (`Booking.EarlierOverlapGoesUnseen`).
- **Unrecognised slots count as afternoon.** The specification leaves them
  unclassified. The code's `isAM` returns false for them, so they land in the
  afternoon half (`SlotTime.IsAM`).
- **Case-sensitive name search.** The specification makes name search
  case-insensitive everywhere. When no specialty is given, the code uses
  `findByNameLike`, which is case-sensitive (`CentralService.FilterDoctor`,
  `DoctorRepo.FindByNameLike`).
- **Two answers to a reschedule conflict.** Validation gives 400; the later
  check gives 409.
- **The reschedule check includes the row being moved.** A move that lands
  less than an hour before the row's own start is refused
  (`Booking.OwnRowBlocksEarlierMove`). The same instant is exempt
  (`Booking.SameInstantIsExempt`).
- **Status is always overwritten.** `updateAppointment` compares two
  `Integer` objects with `!=`, so the status is always set to the requested
  value, with no transition guard.
- **Only the exact start minute counts.** `validateAppointment` accepts a time
  when its exact `"HH:mm"` is one of the doctor's free slot texts once
  normalised. An appointment that starts later within the same hour does not
  block it (`CentralService.AcceptedIffOfferedAndUnbooked`).
- **Meridiem texts without a space throw.** The specification accepts
  `H:MM AM|PM` with an optional space. The code throws on the form without the
  space (see Findings).

## Model

| member | source | states |
|---|---|---|
| SlotTime.NormalizeSlot | app/src/main/java/com/project/back_end/services/DoctorService.java:244-269 | corrected version (see "## Findings"): null gives ""; a trimmed, upper-cased two-digit "HH:mm" comes back as it is, a one-digit "H:mm" gets a leading "0", an "h:mm AM/PM" text (with or without the space) is the 24-hour conversion `ParseMeridiem`, and any other text comes back trimmed and upper-cased; every result is canonical "HH:mm" or that text |
| SlotTime.ParseMeridiem | app/src/main/java/com/project/back_end/services/DoctorService.java:255-265 | for "h:mm AM/PM": PM adds 12 to an hour below 12, 12 AM becomes hour 0, other hours and the minutes are kept, zero-padded to "HH:mm", with no range check |
| SlotTime.NormalizeIdempotent | app/src/main/java/com/project/back_end/services/DoctorService.java:244-269 | normalising a normalised slot changes nothing |
| SlotTime.CanonicalIsFixed | app/src/main/java/com/project/back_end/services/DoctorService.java:249 | a two-digit "HH:mm" is returned unchanged |
| SlotTime.AsWrittenWithSpace | app/src/main/java/com/project/back_end/services/DoctorService.java:255-264 | with a space before the suffix, the split-and-parse code yields exactly the intended 24-hour text |
| SlotTime.AsWrittenWithoutSpace | app/src/main/java/com/project/back_end/services/DoctorService.java:255-261 | without that space, the minute text handed to `parseInt` keeps the suffix, so the code throws |
| SlotTime.NoSpaceMeridiemThrows | app/src/main/java/com/project/back_end/services/DoctorService.java:255-261 | "9:00PM" matches the accepted pattern, throws as written, and means "21:00" |
| SlotTime.IsAM | app/src/main/java/com/project/back_end/services/DoctorService.java:271-282 | on "HH:mm": true iff hour < 12; otherwise true iff the text contains "AM", so unrecognised text is afternoon |
| SlotTime.MeridiemLandsInItsHalf | app/src/main/java/com/project/back_end/services/DoctorService.java:255-282 | a normalised "h:mm AM/PM" with hour 1..12 is morning iff its suffix is AM |
| SlotTime.CompareClocks | app/src/main/java/com/project/back_end/services/DoctorService.java:287-288 | `compareTo` on two "HH:mm" texts orders them as their numeric clock keys |
| SlotTime.ClockKeyIsChronological | app/src/main/java/com/project/back_end/services/DoctorService.java:284-291 | for valid clock times, key order is the order of minutes since midnight |
| SlotTime.CompareHHmm | app/src/main/java/com/project/back_end/services/DoctorService.java:284-291 | on canonical slots, `a` sorts no later than `b` iff its normalised clock key is no larger |
| SlotTime.SortSlots | app/src/main/java/com/project/back_end/services/DoctorService.java:65-68 | sorting the slots is a permutation of them |
| SlotTime.SortSlotsSorted | app/src/main/java/com/project/back_end/services/DoctorService.java:67 | on canonical slots the sorted list ascends by clock key |
| JavaText.Trim | app/src/main/java/com/project/back_end/services/DoctorService.java:246 | the result is a contiguous slice `s[i..j]` of the input, everything outside it is at or below U+0020, and the result itself starts and ends above U+0020 |
| JavaText.UpperTrim | app/src/main/java/com/project/back_end/services/PatientService.java:176-182 | trimming and upper-casing commute, for every text |
| JavaText.LowerOfUpper | app/src/main/java/com/project/back_end/services/PatientService.java:176-182 | lower-casing after upper-casing equals lower-casing alone |
| JavaText.TrimOfTrimmedForm | app/src/main/java/com/project/back_end/services/DoctorService.java:246 | trimming a trimmed text changes nothing |
| JavaText.ToUpper | app/src/main/java/com/project/back_end/services/DoctorService.java:246 | upper-cases character by character, keeping the length |
| JavaText.UpperIdempotent | app/src/main/java/com/project/back_end/services/DoctorService.java:246 | upper-casing twice is upper-casing once |
| JavaText.CompareTo | app/src/main/java/com/project/back_end/services/DoctorService.java:288 | zero exactly for equal texts |
| JavaText.EmptyIsContained | app/src/main/java/com/project/back_end/repo/DoctorRepository.java:21 | `LIKE '%%'` matches every name |
| Tables.Select | app/src/main/java/com/project/back_end/repo/DoctorRepository.java:18-23 | a query keeps exactly the rows its condition accepts, in ascending id order |
| Tables.FindUnique | app/src/main/java/com/project/back_end/repo/DoctorRepository.java:15 | a single-result finder: Found names the one matching row, NotFound iff no row matches, Ambiguous iff two distinct rows match |
| Tables.FindUniqueFound | app/src/main/java/com/project/back_end/repo/DoctorRepository.java:15 | Found iff exactly one row matches |
| Tables.Table.Save | app/src/main/java/com/project/back_end/services/AppointmentService.java:60 | `save` writes the value under its id when that id is stored, else under a fresh id; no other row changes |
| Tables.Table.DeleteById | app/src/main/java/com/project/back_end/services/DoctorService.java:121 | `deleteById` removes that one id |
| Sorting.SortBy | app/src/main/java/com/project/back_end/repo/AppointmentRepository.java:26 | `ORDER BY` returns a permutation of the matched rows |
| Sorting.SortBySorted | app/src/main/java/com/project/back_end/repo/AppointmentRepository.java:26 | under a total preorder the result is sorted |
| Sorting.SortByKeepsSorted | app/src/main/java/com/project/back_end/repo/AppointmentRepository.java:26 | the sort is stable: an already sorted list comes back unchanged |
| Streams.Filter | app/src/main/java/com/project/back_end/services/DoctorService.java:65-66 | a stream filter keeps exactly the accepted elements, each as often as in the input |
| Streams.FilterKeepsAll | app/src/main/java/com/project/back_end/services/DoctorService.java:65-66 | a filter that accepts everything returns its input |
| Streams.FilterAppend | app/src/main/java/com/project/back_end/services/DoctorService.java:65-66 | filtering keeps order: the filter of a front part followed by a back part is the front part's filter followed by the back part's |
| Models.EndTime | app/src/main/java/com/project/back_end/models/Appointment.java:53-55 | null without a start, else exactly one hour after it |
| Models.AppointmentDate | app/src/main/java/com/project/back_end/models/Appointment.java:58-60 | null without a start, else the day whose span holds the start |
| Models.AppointmentTimeOnly | app/src/main/java/com/project/back_end/models/Appointment.java:63-65 | null without a start, else an offset within one day |
| Models.DateAndTimeRecombine | app/src/main/java/com/project/back_end/models/Appointment.java:58-65 | the start of the date plus the time of day is the start |
| Models.DaySpan | app/src/main/java/com/project/back_end/services/DoctorService.java:51-52 | an instant lies between the start of a day and the last nanosecond of that day iff that day is its date |
| Models.InclusiveHourIsHalfOpen | app/src/main/java/com/project/back_end/services/AppointmentService.java:259-262 | the inclusive span `[t, t + 1h - 1ns]` is the half-open hour `[t, end time)` |
| Models.FormatHHmm | app/src/main/java/com/project/back_end/services/Service.java:129-130 | `format("HH:mm")` is a valid "HH:mm" whose minute contains the time of day |
| Models.FormattedIsCanonical | app/src/main/java/com/project/back_end/services/Service.java:129-132 | normalising a formatted time leaves it as it is |
| AppointmentRepo.ByTimeIsPreorder | app/src/main/java/com/project/back_end/repo/AppointmentRepository.java:26 | ordering by time, with missing times first, is a total preorder |
| AppointmentRepo.SelectByTime | app/src/main/java/com/project/back_end/repo/AppointmentRepository.java:18-30 | exactly the accepted rows, each once, ascending by time |
| AppointmentRepo.FindByDoctorIdAndTimeBetween | app/src/main/java/com/project/back_end/repo/AppointmentRepository.java:18-30 | exactly that doctor's appointments with start in `[start, end]` inclusive, each once, ascending by time |
| AppointmentRepo.FindByDoctorIdAndPatientNameAndTimeBetween | app/src/main/java/com/project/back_end/repo/AppointmentRepository.java:33-48 | the same window, also requiring that the patient's name contains the text, ignoring case |
| AppointmentRepo.PatientNameNarrows | app/src/main/java/com/project/back_end/repo/AppointmentRepository.java:33-48 | the name-filtered query only drops rows of the plain window query |
| AppointmentRepo.FindByPatientId | app/src/main/java/com/project/back_end/repo/AppointmentRepository.java:57 | exactly the patient's appointments, in scan order |
| AppointmentRepo.FindByPatientIdAndStatus | app/src/main/java/com/project/back_end/repo/AppointmentRepository.java:60 | exactly the patient's appointments with that status, ascending by time |
| AppointmentRepo.FilterByDoctorNameAndPatientId | app/src/main/java/com/project/back_end/repo/AppointmentRepository.java:63-73 | the patient's appointments whose doctor's name contains the text ignoring case, ascending by time |
| AppointmentRepo.FilterByDoctorNameAndPatientIdAndStatus | app/src/main/java/com/project/back_end/repo/AppointmentRepository.java:76-88 | the same, also requiring status equality |
| AppointmentRepo.StatusFilterRefines | app/src/main/java/com/project/back_end/repo/AppointmentRepository.java:63-88 | the status query keeps exactly the rows of the plain query that carry that status |
| AppointmentRepo.DeleteAllByDoctorId | app/src/main/java/com/project/back_end/repo/AppointmentRepository.java:51-54 | removes exactly that doctor's rows; every other row stays as it was |
| AppointmentRepo.UpdateStatus | app/src/main/java/com/project/back_end/repo/AppointmentRepository.java:91-94 | only the status of the row with that id changes; no such row, no change |
| DoctorRepo.FindByEmail | app/src/main/java/com/project/back_end/repo/DoctorRepository.java:15 | exact, case-sensitive email match; NotFound iff no doctor has that email; a found doctor is the only one with it; throws iff two doctors share it |
| DoctorRepo.FindByNameLike | app/src/main/java/com/project/back_end/repo/DoctorRepository.java:18-23 | exactly the doctors whose name contains the text, case-sensitively |
| DoctorRepo.EmptyNameMatchesAll | app/src/main/java/com/project/back_end/repo/DoctorRepository.java:18-23 | an empty name matches every doctor |
| DoctorRepo.FindByNameAndSpecialtyIgnoreCase | app/src/main/java/com/project/back_end/repo/DoctorRepository.java:26-33 | name contains the text and specialty equals it, both ignoring case |
| DoctorRepo.FindBySpecialtyIgnoreCase | app/src/main/java/com/project/back_end/repo/DoctorRepository.java:36 | specialty equal, ignoring case |
| DoctorRepo.EmptyNameIsSpecialtyQuery | app/src/main/java/com/project/back_end/repo/DoctorRepository.java:26-36 | with an empty name, the combined query is the specialty query, list for list |
| DoctorRepo.FindAll | app/src/main/java/com/project/back_end/services/DoctorService.java:108 | every doctor once, in id order |
| Accounts.FindPatientByEmail | app/src/main/java/com/project/back_end/services/PatientService.java:53 | exact email lookup of a patient; NotFound iff no patient has it; a found patient is the only one with the email; throws iff two patients share it |
| Accounts.FindPatientByEmailOrPhone | app/src/main/java/com/project/back_end/services/Service.java:145 | the patient matching the email or the phone; NotFound iff neither matches any patient; a found patient is the only match; throws iff two patients match |
| Accounts.FindAdminByUsername | app/src/main/java/com/project/back_end/services/Service.java:64 | exact username lookup; NotFound iff no admin has it; a found admin is the only one with it; throws iff two admins share it |
| Tokens.GenerateToken | app/src/main/java/com/project/back_end/services/TokenService.java:41-51 | subject is the identifier; expiry is exactly 604 800 000 ms after issue |
| Tokens.ExtractIdentifier | app/src/main/java/com/project/back_end/services/TokenService.java:54-65 | no token, no identifier; any identifier is what the parser read from the token |
| Tokens.RoleLookup | app/src/main/java/com/project/back_end/services/TokenService.java:73-88 | Found iff the identifier is exactly one account of the named role; an unknown role finds nothing |
| Tokens.ValidateToken | app/src/main/java/com/project/back_end/services/TokenService.java:68-93 | true iff the token yields an identifier and, under the lower-cased role, that identifier is exactly one admin username, doctor email or patient email |
| Tokens.NoAccountNoAccess | app/src/main/java/com/project/back_end/services/TokenService.java:74-88 | an identifier that is no account is refused for every role |
| DoctorServices.FoundOnDay | app/src/main/java/com/project/back_end/services/DoctorService.java:51-56 | the day's window query finds a row iff it is the doctor's and its date is that day |
| DoctorServices.BookedTimesAreBookings | app/src/main/java/com/project/back_end/services/DoctorService.java:55-63 | the booked set is exactly the "HH:mm" starts of the doctor's appointments on that date |
| DoctorServices.FreeSlots | app/src/main/java/com/project/back_end/services/DoctorService.java:65-68 | each template slot is kept, as often as it occurs, iff its normalised form is not booked; on a canonical template the result ascends |
| DoctorServices.SortedWhenCanonical | app/src/main/java/com/project/back_end/services/DoctorService.java:65-68 | slots drawn from a canonical template come back ascending by clock |
| DoctorServices.GetDoctorAvailability | app/src/main/java/com/project/back_end/services/DoctorService.java:39-69 | empty for a missing doctor id or date or an unknown doctor; otherwise exactly the template slots not booked that day, counted as in the template, ascending on a canonical template |
| DoctorServices.AvailabilityIsUnbookedTemplate | app/src/main/java/com/project/back_end/services/DoctorService.java:51-68 | a slot is offered iff it is in the template and its normalised time is not booked that day |
| DoctorServices.FilterDoctorByTime | app/src/main/java/com/project/back_end/services/DoctorService.java:228-239 | null or blank half: input unchanged; otherwise exactly the doctors with a slot in the wanted half, where anything but "am" means PM; each doctor at most as often as in the input |
| DoctorServices.FilterDoctorByTimeKeepsOrder | app/src/main/java/com/project/back_end/services/DoctorService.java:228-239 | the half-day filter keeps input order: on a front part followed by a back part it lists the front part's kept doctors first |
| DoctorServices.MorningMeansHourBelowTwelve | app/src/main/java/com/project/back_end/services/DoctorService.java:271-282 | with "HH:mm" slots, a doctor is a morning doctor iff some slot's hour is below 12 |
| DoctorServices.GetDoctors | app/src/main/java/com/project/back_end/services/DoctorService.java:107-109 | every doctor once |
| DoctorServices.FindDoctorByName | app/src/main/java/com/project/back_end/services/DoctorService.java:156-159 | case-sensitive name substring; null lists everyone |
| DoctorServices.FilterDoctorsByNameSpecialtyAndTime | app/src/main/java/com/project/back_end/services/DoctorService.java:165-172 | name substring and specialty equality ignoring case, then the half of day |
| DoctorServices.FilterDoctorByNameAndTime | app/src/main/java/com/project/back_end/services/DoctorService.java:178-181 | case-sensitive name substring, then the half of day |
| DoctorServices.FilterDoctorByNameAndSpecialty | app/src/main/java/com/project/back_end/services/DoctorService.java:187-194 | name substring and specialty equality ignoring case |
| DoctorServices.FilterDoctorByTimeAndSpecialty | app/src/main/java/com/project/back_end/services/DoctorService.java:200-203 | specialty ignoring case, then the half of day |
| DoctorServices.FilterDoctorBySpecialty | app/src/main/java/com/project/back_end/services/DoctorService.java:209-212 | specialty ignoring case |
| DoctorServices.FilterDoctorsByTime | app/src/main/java/com/project/back_end/services/DoctorService.java:218-221 | all doctors, then the half of day |
| DoctorServices.ValidateDoctor | app/src/main/java/com/project/back_end/services/DoctorService.java:134-149 | 400 for a missing credential; 401 iff no doctor has the email or its one doctor's password differs; 500 iff two doctors share the email; a token and "DOCTOR" only on an exact match, and always when the email belongs to exactly one doctor whose password matches |
| DoctorServices.DoctorService.SaveDoctor | app/src/main/java/com/project/back_end/services/DoctorService.java:76-85 | 0 for null; -1 iff one doctor has the email; 1 iff none has it, and then the doctor is stored; nothing changes otherwise |
| DoctorServices.DoctorService.UpdateDoctor | app/src/main/java/com/project/back_end/services/DoctorService.java:92-101 | 0 for null, -1 for an unknown id, 1 and the row replaced iff the id is stored |
| DoctorServices.DoctorService.DeleteDoctor | app/src/main/java/com/project/back_end/services/DoctorService.java:116-126 | 1 iff the doctor exists: it and exactly its appointments are removed and other rows are untouched; -1 and no change otherwise |
| PatientServices.MapConditionToStatus | app/src/main/java/com/project/back_end/services/PatientService.java:176-182 | trimmed, lower-cased "future" is 0 and "past" is 1; anything else is null |
| PatientServices.ConditionIgnoresCase | app/src/main/java/com/project/back_end/services/PatientService.java:176-182 | for every condition text, its upper-cased form maps to the same status (the mapping lower-cases after trimming) |
| PatientServices.GetPatientAppointment | app/src/main/java/com/project/back_end/services/PatientService.java:45-67 | 400 for a null id or blank token, 401 when no patient has the token's email, 403 when the patient is another; a listing is all that patient's appointments ascending by time |
| PatientServices.FilterByCondition | app/src/main/java/com/project/back_end/services/PatientService.java:72-90 | 400 iff the id is null or the condition does not map; else exactly the patient's appointments with that status, ascending |
| PatientServices.FilterByDoctor | app/src/main/java/com/project/back_end/services/PatientService.java:94-109 | 400 iff patient id or name is null; else the patient's appointments whose doctor name contains the trimmed name ignoring case, ascending |
| PatientServices.FilterByDoctorAndCondition | app/src/main/java/com/project/back_end/services/PatientService.java:113-129 | 400 iff the condition does not map or the name is null; else doctor name, patient and status, ascending |
| PatientServices.ConditionNarrowsDoctorFilter | app/src/main/java/com/project/back_end/services/PatientService.java:94-129 | adding the condition only drops rows of the doctor-name listing |
| PatientServices.GetPatientDetails | app/src/main/java/com/project/back_end/services/PatientService.java:133-154 | 400 for a blank token, 401 for a null or blank identifier, 404 for an unknown patient; for a non-blank identifier, details whenever exactly one patient has the email, and 500 iff two patients share it; details only of that one patient |
| PatientServices.DetailsFor | app/src/main/java/com/project/back_end/services/PatientService.java:139-152 | the lookup step: 404 when no patient has the email, the patient iff exactly one has it, 500 iff two share it |
| PatientServices.PatientService.CreatePatient | app/src/main/java/com/project/back_end/services/PatientService.java:33-41 | 0 and no change for null; otherwise 1 and the patient stored |
| Booking.IsSlotFree | app/src/main/java/com/project/back_end/services/AppointmentService.java:257-264 | false for a null doctor or time; else true iff no appointment of the doctor starts in `[t, t + 1h)` |
| Booking.EarlierOverlapGoesUnseen | app/src/main/java/com/project/back_end/services/AppointmentService.java:257-264 | an appointment that started half an hour earlier does not make the slot busy |
| Booking.LaterStartBlocks | app/src/main/java/com/project/back_end/services/AppointmentService.java:257-264 | any appointment of the doctor starting within the hour makes the slot busy |
| Booking.FreeSlotKeepsStartsDistinct | app/src/main/java/com/project/back_end/services/AppointmentService.java:56-60 | writing an appointment into a free slot keeps every doctor's start instants distinct |
| Booking.SameSlot | app/src/main/java/com/project/back_end/services/AppointmentService.java:252-254 | true iff both times are null or both are the same instant |
| Booking.ValidateAppointmentUpdate | app/src/main/java/com/project/back_end/services/AppointmentService.java:226-250 | throws iff the stored row has no doctor and the check reads it; "Invalid doctor" iff a different, unknown doctor is requested; "Time not available" iff a new time is not free for the doctor the row would have after the update (the requested one, else the stored one) |
| Booking.Merged | app/src/main/java/com/project/back_end/services/AppointmentService.java:92-110 | doctor and time replaced only when given, status always replaced, patient kept |
| Booking.UpdateOutcome | app/src/main/java/com/project/back_end/services/AppointmentService.java:73-114 | corrected version (see "## Findings"): 400 for a null payload or id, 404 iff the id is unknown, no change unless 200; for a known id, 500 iff the stored row has no doctor and the request supplies a doctor or a time, and 200 iff validation passes, a supplied doctor exists and the null-doctor case does not arise; on 200 the row is the merge, a supplied doctor exists, and a new time was free for the row's doctor |
| Booking.UpdateAsWritten | app/src/main/java/com/project/back_end/services/AppointmentService.java:92-104 | a 409 leaves the row carrying the requested doctor |
| Booking.AsWrittenAgreesOtherwise | app/src/main/java/com/project/back_end/services/AppointmentService.java:73-114 | apart from 409, the code as written and the corrected update agree |
| Booking.SameDoctorNoLateConflict | app/src/main/java/com/project/back_end/services/AppointmentService.java:92-104 | when the doctor does not change, the code as written is the corrected update |
| Booking.ExampleValidates | app/src/main/java/com/project/back_end/services/AppointmentService.java:226-250 | the example move to doctor 11 passes validation |
| Booking.AsWrittenKeepsDoctorChange | app/src/main/java/com/project/back_end/services/AppointmentService.java:92-104 | the example answers 409 yet stores doctor 11 |
| Booking.CheckedUpdateMoves | app/src/main/java/com/project/back_end/services/AppointmentService.java:73-114 | corrected, the same request answers 200 with the merged row |
| Booking.ConflictKeepsDoctorChange | app/src/main/java/com/project/back_end/services/AppointmentService.java:92-104 | the as-written 409 changes the table, while the corrected update succeeds |
| Booking.SameInstantIsExempt | app/src/main/java/com/project/back_end/services/AppointmentService.java:226-254 | rescheduling a row that has a doctor to its own instant succeeds, keeping the doctor or switching to any existing one |
| Booking.OwnRowBlocksEarlierMove | app/src/main/java/com/project/back_end/services/AppointmentService.java:237-246 | moving a row less than an hour earlier is refused because of the row itself |
| Booking.DayList | app/src/main/java/com/project/back_end/services/AppointmentService.java:172-183 | the doctor's appointments that day, filtered by patient name when one has text, ascending |
| Booking.GetAppointment | app/src/main/java/com/project/back_end/services/AppointmentService.java:155-191 | not a doctor iff the token's email matches no doctor; date required iff a doctor and no date; otherwise the day list |
| Booking.AppointmentService.BookAppointment | app/src/main/java/com/project/back_end/services/AppointmentService.java:42-65 | 1 iff doctor, patient and time are given, both ids exist and the slot is free, and then exactly the appointment is stored; 0 and no change otherwise |
| Booking.AppointmentService.UpdateAppointment | app/src/main/java/com/project/back_end/services/AppointmentService.java:73-114 | answers and stores exactly what `Booking.UpdateOutcome` says: the same codes, the same success and 500 conditions, and the merged row only on 200 |
| Booking.AppointmentService.CancelAppointment | app/src/main/java/com/project/back_end/services/AppointmentService.java:122-146 | 404 for an unknown id; 200 iff the token's patient owns it, and then only that row is deleted; no change otherwise |
| Booking.AppointmentService.ChangeStatus | app/src/main/java/com/project/back_end/services/AppointmentService.java:197-204 | 404 and no change iff unknown; else 200 and only the status changes |
| Prescriptions.FindByAppointmentId | app/src/main/java/com/project/back_end/services/PrescriptionService.java:42 | exactly the prescriptions for that appointment |
| Prescriptions.AtMostOneFound | app/src/main/java/com/project/back_end/services/PrescriptionService.java:42-48 | under the invariant, the lookup finds at most one prescription |
| Prescriptions.WriteKeepsAtMostOne | app/src/main/java/com/project/back_end/services/PrescriptionService.java:42-48 | writing a prescription for an appointment that has none keeps the invariant |
| Prescriptions.GetPrescription | app/src/main/java/com/project/back_end/services/PrescriptionService.java:65-88 | 400 for a null id, 404 iff none exist; for a given id, prescriptions are returned iff some exist, and then exactly that appointment's prescriptions |
| Prescriptions.PrescriptionService.SavePrescription | app/src/main/java/com/project/back_end/services/PrescriptionService.java:34-57 | 400 for a null payload or appointment id; 201 iff no prescription exists for that appointment, and then it is stored; 400 and no change otherwise; at most one prescription per appointment is preserved |
| CentralService.TokenStatus | app/src/main/java/com/project/back_end/services/Service.java:47-55 | 200 iff the token names an account of the role, else 401 |
| CentralService.ValidateAdmin | app/src/main/java/com/project/back_end/services/Service.java:58-78 | 400 for a missing credential; 401 iff no admin has the username or its one admin's password differs; 500 iff two admins share the username; a token and "ADMIN" only on an exact match, and always when the username belongs to exactly one admin whose password matches |
| CentralService.ValidatePatientLogin | app/src/main/java/com/project/back_end/services/Service.java:150-168 | the same for patients by email: 400, 401 and 500 as for admins; a token with "PATIENT" and the name only on an exact match, and always when the email belongs to exactly one patient whose password matches |
| CentralService.FilterDoctor | app/src/main/java/com/project/back_end/services/Service.java:81-110 | the dispatch lists exactly the doctors matching the arguments that have text: name ignoring case with a specialty, case-sensitive without one; specialty ignoring case; half of day |
| CentralService.NoFiltersListsEveryone | app/src/main/java/com/project/back_end/services/Service.java:81-110 | with no argument carrying text, the result is all doctors |
| CentralService.ValidateAppointment | app/src/main/java/com/project/back_end/services/Service.java:114-137 | 0 when a piece is missing; -1 iff the doctor is unknown; 1 iff some free slot of that date normalises to the appointment's "HH:mm" |
| CentralService.AcceptedIffOfferedAndUnbooked | app/src/main/java/com/project/back_end/services/Service.java:125-132 | accepted iff the doctor offers that exact "HH:mm" and has no appointment starting at that minute that day |
| CentralService.ValidatePatient | app/src/main/java/com/project/back_end/services/Service.java:141-147 | false for null; true iff no patient has the email or the phone; throws iff two patients match |
| CentralService.TrimTwice | app/src/main/java/com/project/back_end/services/Service.java:187-199 | passing an already trimmed condition on changes nothing |
| CentralService.Requester | app/src/main/java/com/project/back_end/services/Service.java:182 | the patient with the token's email; NotFound iff none; a found patient is the only one with it; throws iff two patients share it |
| CentralService.FilterPatient | app/src/main/java/com/project/back_end/services/Service.java:172-203 | 400 blank token, 401 no identifier, 404 unknown patient; a listing holds only the patient's appointments, ascending, with the status and doctor-name filters applied, and all of them when no filter is given |
| Controllers.AppointmentController.BookAppointment | app/src/main/java/com/project/back_end/controllers/AppointmentController.java:52-76 | 401 for a non-patient token, 400 for an unknown doctor, 409 for a refused slot, 201 iff the booking goes through, and then only the appointment is stored |
| Controllers.PrescriptionController.SavePrescription | app/src/main/java/com/project/back_end/controllers/PrescriptionController.java:32-51 | 401 for a non-doctor token; otherwise 201 iff the payload names an appointment that has no prescription yet, else 400; on 201 the prescription is written and the named appointment is marked Completed; nothing changes on any other answer |

## Left out

- JWT signing, parsing and key derivation are foreign cryptography. The parser
  is the parameter `parse`, and the clock is `nowMillis`.
- The server's own clock and `new Date()` are parameters.
- `@Transactional`, concurrent requests and the double-booking race: every
  operation is modelled as one sequential step.
- Bean validation annotations (`@Future`, `@Email`, `@Size`, ...), DTO
  mapping, response bodies and logging: only status codes and stored rows
  are modelled.
- The HTTP controllers other than the two composed endpoints, and all
  front-end JavaScript.
- `PatientRepository`, `AdminRepository` and `PrescriptionRepository` are not
  part of this model. Their derived finders are modelled from their method
  names in `Accounts` and `Prescriptions.FindByAppointmentId`.
- Referential integrity: an appointment's doctor and patient are ids. A query
  condition on a doctor or patient id (`d.id = :doctorId`, `p.id = :patientId`)
  is read on the appointment's own id column, so it holds even when no doctor
  or patient row has that id. Only a condition on a name read through the
  join (`AppointmentRepo.PatientNameMatches`, `AppointmentRepo.DoctorNameMatches`)
  fails on a missing row. Foreign keys keep such rows from arising in the
  database, and the model does not assume them.
- Case mapping and whitespace follow ASCII. Java's full Unicode case tables
  and locale rules are not modelled.
- `LIKE` wildcards inside the searched text (`%`, `_`) are taken literally.
- The time order places missing appointment times first. Database NULL
  ordering depends on the vendor.
- Prescription documents are keyed by integer ids, not Mongo ObjectIds.
- DoctorServices.DoctorService.SaveDoctor and CentralService.ValidatePatient:
  string fields of a payload (a doctor's email, a patient's email or phone)
  are plain texts and are never null. So `saveDoctor`'s 0 for a doctor without an
  email, and `findByEmailOrPhone` called with a null email or phone, are not
  modelled.
- `Integer` status values are plain integers; a null status in a payload is
  not modelled.
- `Booking.AppointmentService.BookAppointment` and
  `Controllers.AppointmentController.BookAppointment` store the payload as
  given (id and status included), as `save` does. The fresh id `save`
  chooses is only said to be new.
- DoctorServices.GetDoctorAvailability: sortedness is stated only for
  templates whose slots are all canonical "HH:mm". On other texts
  `compareHHmm` mixes two orders and is not a total preorder, so
  `List.sort` may give any order or throw.
- SlotTime.CompareHHmm: specified only for canonical slots, for the same reason.
- SlotTime.SortSlots: stated as a permutation. Its order is stated by
  `SlotTime.SortSlotsSorted` for canonical slots only.
- PatientServices.GetPatientAppointment: a listing that sorts an appointment
  without a time answers 500. The contract says only that any listing is
  complete and ascending.
- CentralService.FilterPatient: with a condition or a name, the contract gives
  the listed rows' properties (owner, status, doctor name, order) rather than
  equality with the query. Each query's exact contents are stated by
  `PatientServices.FilterByCondition`, `PatientServices.FilterByDoctor` and
  `PatientServices.FilterByDoctorAndCondition`.
- SlotTime.NormalizeSlot is the corrected parse from "## Findings": it turns
  "h:mmAM/PM" without a space into "HH:mm", where the code throws. So
  DoctorServices.GetDoctorAvailability, DoctorServices.FilterDoctorByTime,
  the filter wrappers built on it (DoctorServices.FilterDoctorsByNameSpecialtyAndTime,
  DoctorServices.FilterDoctorByNameAndTime,
  DoctorServices.FilterDoctorByTimeAndSpecialty and
  DoctorServices.FilterDoctorsByTime), CentralService.FilterDoctor,
  CentralService.ValidateAppointment and
  Controllers.AppointmentController.BookAppointment do not model that throw.
  For a doctor holding such a slot, the code's availability and search answer
  500. Its `validateAppointment` catches the exception and returns 0, so the
  booking endpoint answers 409. The code as written is
  `SlotTime.ParseMeridiemAsWritten`.
- Booking.UpdateOutcome, and with it Booking.AppointmentService.UpdateAppointment,
  is the corrected reschedule from "## Findings": it does not commit a doctor
  change together with a 409. The code as written is `Booking.UpdateAsWritten`.
- Prescriptions.AtMostOneFound: the invariant is stated as "any two found ids
  are equal".

## Findings

| source | as written | input that shows it | evidently intended | confidence | as-written member | corrected member |
|---|---|---|---|---|---|---|
| app/src/main/java/com/project/back_end/services/DoctorService.java:255-261 | the pattern accepts an optional space before AM/PM, but the text is split on whitespace, so without the space the minute part keeps the suffix and `Integer.parseInt` throws; `normalizeHHmm` in Service.java is the same code | a doctor slot "9:00PM" | "9:00PM" normalises to "21:00", as "9:00 PM" does | high, not executed | SlotTime.NoSpaceMeridiemThrows | SlotTime.ParseMeridiem |
| app/src/main/java/com/project/back_end/services/AppointmentService.java:92-104 | `existing.setDoctor(...)` runs before the free-slot check. The 409 is returned from a method that commits normally, so the new doctor is saved although the update was refused | stored row: doctor 10 at 10:00. Request: doctor 11, time 09:30. Validation checks doctor 11 and passes. The later check reads the row itself, now under doctor 11, starting within the hour, and answers 409 | the slot is checked for the target doctor before anything is changed. A refused update leaves the row as it was | medium, not executed | Booking.AsWrittenKeepsDoctorChange | Booking.UpdateOutcome |

=== FILE: accounts.dfy ===
/**
 * The account finders of PatientRepository and AdminRepository that the
 * services call, as Spring Data derives them from their method names.
 */
module Accounts {
  import opened Wrappers
  import opened Tables
  import opened Models

  /** `PatientRepository.findByEmail`; a null email matches no row. */
  function FindPatientByEmail(patients: map<int, Patient>, email: Option<string>): (r: Lookup)
    ensures r.Found? ==> r.id in patients && email == Some(patients[r.id].email)
    ensures r.NotFound? <==> forall k :: k in patients ==> email != Some(patients[k].email)
    ensures r.Found? ==> forall k :: k in patients && email == Some(patients[k].email) ==> k == r.id
    ensures r.Ambiguous? <==> exists j, k :: (j in patients && k in patients && j != k
      && email == Some(patients[j].email) && email == Some(patients[k].email))
  {
    FindUnique(patients, (p: Patient) => email == Some(p.email))
  }

  /** `PatientRepository.findByEmailOrPhone`: a row whose email or phone matches. */
  function FindPatientByEmailOrPhone(patients: map<int, Patient>, email: Option<string>, phone: Option<string>): (r: Lookup)
    ensures r.Found? ==> r.id in patients && (email == Some(patients[r.id].email) || phone == Some(patients[r.id].phone))
    ensures r.NotFound? <==> forall k :: k in patients ==> email != Some(patients[k].email) && phone != Some(patients[k].phone)
    ensures r.Found? ==>
      forall k :: k in patients && (email == Some(patients[k].email) || phone == Some(patients[k].phone)) ==> k == r.id
    ensures r.Ambiguous? <==> exists j, k :: (j in patients && k in patients && j != k
      && (email == Some(patients[j].email) || phone == Some(patients[j].phone))
      && (email == Some(patients[k].email) || phone == Some(patients[k].phone)))
  {
    FindUnique(patients, (p: Patient) => email == Some(p.email) || phone == Some(p.phone))
  }

  /** `AdminRepository.findByUsername`. */
  function FindAdminByUsername(admins: map<int, Admin>, username: Option<string>): (r: Lookup)
    ensures r.Found? ==> r.id in admins && username == Some(admins[r.id].username)
    ensures r.NotFound? <==> forall k :: k in admins ==> username != Some(admins[k].username)
    ensures r.Found? ==> forall k :: k in admins && username == Some(admins[k].username) ==> k == r.id
    ensures r.Ambiguous? <==> exists j, k :: (j in admins && k in admins && j != k
      && username == Some(admins[j].username) && username == Some(admins[k].username))
  {
    FindUnique(admins, (a: Admin) => username == Some(a.username))
  }
}

=== FILE: appointment_repository.dfy ===
/**
 * The appointment table and the queries of AppointmentRepository. A query
 * answers with the ids of the matching rows: first in id order (the order of a
 * table scan) and then, where the query says `ORDER BY a.appointmentTime ASC`,
 * stably sorted by start time with rows lacking a time first.
 */
module AppointmentRepo {
  import opened Wrappers
  import opened JavaText
  import opened Tables
  import opened Sorting
  import opened Models

  /** `a` may be listed before `b` under `ORDER BY appointmentTime ASC`. */
  predicate TimeBefore(a: Appointment, b: Appointment) {
    a.time.None? || (b.time.Some? && a.time.value <= b.time.value)
  }

  /** The same order on the ids of `rows`. */
  function ByTime(rows: map<int, Appointment>): (int, int) -> bool {
    (i: int, j: int) => i in rows && j in rows && TimeBefore(rows[i], rows[j])
  }

  lemma ByTimeIsPreorder(rows: map<int, Appointment>, ids: seq<int>)
    requires forall k :: k in ids ==> k in rows
    ensures TotalPreorderOn(ids, ByTime(rows))
  {
    var before := ByTime(rows);
    forall x, y | x in ids && y in ids ensures before(x, y) || before(y, x) {
      assert TimeBefore(rows[x], rows[y]) || TimeBefore(rows[y], rows[x]);
    }
    forall x, y, z | x in ids && y in ids && z in ids && before(x, y) && before(y, z) ensures before(x, z) {
      assert before(x, y) == TimeBefore(rows[x], rows[y]);
      assert before(y, z) == TimeBefore(rows[y], rows[z]);
      assert before(x, z) == TimeBefore(rows[x], rows[z]);
    }
  }

  /** Every row that `keep` accepts, once each, ascending by time. */
  function SelectByTime(rows: map<int, Appointment>, keep: Appointment -> bool): (r: seq<int>)
    ensures forall k :: k in r <==> k in rows && keep(rows[k])
    ensures Distinct(r)
    ensures SortedBy(r, ByTime(rows))
  {
    var ids := Select(rows, keep);
    var r := SortBy(ids, ByTime(rows));
    StrictlyIncreasingIsDistinct(ids);
    PermutationKeepsDistinct(ids, r);
    ByTimeIsPreorder(rows, ids);
    SortBySorted(ids, ByTime(rows));
    r
  }

  /** The doctor column matches and the start lies in `[start, end]`, bounds included. */
  predicate InWindow(a: Appointment, doctorId: int, start: int, end: int) {
    a.doctorId == Some(doctorId) && a.time.Some? && start <= a.time.value <= end
  }

  /** `findByDoctorIdAndAppointmentTimeBetween`. */
  function FindByDoctorIdAndTimeBetween(rows: map<int, Appointment>, doctorId: int, start: int, end: int): (r: seq<int>)
    ensures forall k :: k in r <==> (k in rows && rows[k].doctorId == Some(doctorId)
      && rows[k].time.Some? && start <= rows[k].time.value <= end)
    ensures Distinct(r) && SortedBy(r, ByTime(rows))
  {
    SelectByTime(rows, (a: Appointment) => InWindow(a, doctorId, start, end))
  }

  /** `LOWER(p.name) LIKE LOWER(CONCAT('%', :patientName, '%'))` over the joined patient. */
  predicate PatientNameMatches(a: Appointment, patients: map<int, Patient>, patientName: string) {
    a.patientId.Some? && a.patientId.value in patients
    && ContainsIgnoreCase(patients[a.patientId.value].name, patientName)
  }

  /** `findByDoctorIdAndPatient_NameContainingIgnoreCaseAndAppointmentTimeBetween`. */
  function FindByDoctorIdAndPatientNameAndTimeBetween(
    rows: map<int, Appointment>, patients: map<int, Patient>,
    doctorId: int, patientName: string, start: int, end: int): (r: seq<int>)
    ensures forall k :: k in r <==> (k in rows && InWindow(rows[k], doctorId, start, end)
      && PatientNameMatches(rows[k], patients, patientName))
    ensures Distinct(r) && SortedBy(r, ByTime(rows))
  {
    SelectByTime(rows, (a: Appointment) => InWindow(a, doctorId, start, end) && PatientNameMatches(a, patients, patientName))
  }

  /** Narrowing by patient name only drops rows of the plain window query. */
  lemma PatientNameNarrows(
    rows: map<int, Appointment>, patients: map<int, Patient>,
    doctorId: int, patientName: string, start: int, end: int)
    ensures forall k :: (k in FindByDoctorIdAndPatientNameAndTimeBetween(rows, patients, doctorId, patientName, start, end)
      ==> k in FindByDoctorIdAndTimeBetween(rows, doctorId, start, end))
  {
  }

  /** `findByPatient_Id`: no ORDER BY, so the scan order. */
  function FindByPatientId(rows: map<int, Appointment>, patientId: int): (r: seq<int>)
    ensures forall k :: k in r <==> k in rows && rows[k].patientId == Some(patientId)
    ensures StrictlyIncreasing(r)
  {
    Select(rows, (a: Appointment) => a.patientId == Some(patientId))
  }

  /** `findByPatient_IdAndStatusOrderByAppointmentTimeAsc`. */
  function FindByPatientIdAndStatus(rows: map<int, Appointment>, patientId: int, status: int): (r: seq<int>)
    ensures forall k :: k in r <==> k in rows && rows[k].patientId == Some(patientId) && rows[k].status == status
    ensures Distinct(r) && SortedBy(r, ByTime(rows))
  {
    SelectByTime(rows, (a: Appointment) => a.patientId == Some(patientId) && a.status == status)
  }

  /** `LOWER(d.name) LIKE LOWER(CONCAT('%', :doctorName, '%'))` over the joined doctor. */
  predicate DoctorNameMatches(a: Appointment, doctors: map<int, Doctor>, doctorName: string) {
    a.doctorId.Some? && a.doctorId.value in doctors
    && ContainsIgnoreCase(doctors[a.doctorId.value].name, doctorName)
  }

  /** `filterByDoctorNameAndPatientId`. */
  function FilterByDoctorNameAndPatientId(
    rows: map<int, Appointment>, doctors: map<int, Doctor>, doctorName: string, patientId: int): (r: seq<int>)
    ensures forall k :: k in r <==> (k in rows && rows[k].patientId == Some(patientId)
      && DoctorNameMatches(rows[k], doctors, doctorName))
    ensures Distinct(r) && SortedBy(r, ByTime(rows))
  {
    SelectByTime(rows, (a: Appointment) => a.patientId == Some(patientId) && DoctorNameMatches(a, doctors, doctorName))
  }

  /** `filterByDoctorNameAndPatientIdAndStatus`. */
  function FilterByDoctorNameAndPatientIdAndStatus(
    rows: map<int, Appointment>, doctors: map<int, Doctor>, doctorName: string, patientId: int, status: int): (r: seq<int>)
    ensures forall k :: k in r <==> (k in rows && rows[k].patientId == Some(patientId)
      && rows[k].status == status && DoctorNameMatches(rows[k], doctors, doctorName))
    ensures Distinct(r) && SortedBy(r, ByTime(rows))
  {
    SelectByTime(rows, (a: Appointment) => a.patientId == Some(patientId) && a.status == status && DoctorNameMatches(a, doctors, doctorName))
  }

  /** The status-filtered query keeps exactly the rows of the unfiltered one
      that carry that status. */
  lemma StatusFilterRefines(rows: map<int, Appointment>, doctors: map<int, Doctor>, doctorName: string, patientId: int, status: int)
    ensures forall k :: (k in FilterByDoctorNameAndPatientIdAndStatus(rows, doctors, doctorName, patientId, status)
      <==> k in FilterByDoctorNameAndPatientId(rows, doctors, doctorName, patientId) && rows[k].status == status)
  {
  }

  /** `deleteAllByDoctorId`: removes exactly that doctor's rows and leaves
      every other row as it was. */
  method DeleteAllByDoctorId(table: Table<Appointment>, doctorId: int)
    requires table.Valid()
    modifies table
    ensures table.Valid()
    ensures forall k :: k in table.rows <==> k in old(table.rows) && old(table.rows)[k].doctorId != Some(doctorId)
    ensures forall k :: k in table.rows ==> table.rows[k] == old(table.rows)[k]
  {
    table.rows := map k | k in table.rows && table.rows[k].doctorId != Some(doctorId) :: table.rows[k];
  }

  /** `updateStatus`: only the status of the row with that id changes; no row
      with that id, no change. */
  method UpdateStatus(table: Table<Appointment>, status: int, id: int)
    requires table.Valid()
    modifies table
    ensures table.Valid()
    ensures id in old(table.rows) ==> table.rows == old(table.rows)[id := old(table.rows)[id].(status := status)]
    ensures id !in old(table.rows) ==> table.rows == old(table.rows)
  {
    if id in table.rows {
      table.rows := table.rows[id := table.rows[id].(status := status)];
    }
  }
}

=== FILE: appointment_service.dfy ===
/**
 * AppointmentService: booking, rescheduling, cancelling and status changes
 * over the appointment table, and a doctor's day list. The conflict test
 * looks forward only: a slot at `t` is free when no appointment of the doctor
 * starts in `[t, t + 1h)`.
 */
module Booking {
  import opened Wrappers
  import opened JavaText
  import opened Tables
  import opened Sorting
  import opened Models
  import opened AppointmentRepo
  import DoctorRepo
  import Accounts
  import opened Tokens

  /** The start `s` falls within the hour that begins at `t`. */
  predicate StartsWithinHour(s: int, t: int) {
    t <= s < t + NANOS_PER_HOUR
  }

  /** `isSlotFree`: false when the doctor id or the time is missing; otherwise
      true exactly when no appointment of that doctor starts within the hour
      from `when`. The query's inclusive end `when + 1h - 1ns` makes that hour
      half-open. */
  function IsSlotFree(appts: map<int, Appointment>, doctorId: Option<int>, when: Option<int>): (free: bool)
    ensures doctorId.None? || when.None? ==> !free
    ensures doctorId.Some? && when.Some? ==> (free <==>
      forall k :: k in appts && appts[k].doctorId == doctorId && appts[k].time.Some?
        ==> !StartsWithinHour(appts[k].time.value, when.value))
  {
    if doctorId.None? || when.None? then false
    else
      var taken := FindByDoctorIdAndTimeBetween(appts, doctorId.value, when.value, when.value + NANOS_PER_HOUR - 1);
      assert forall k :: (k in appts && appts[k].doctorId == doctorId && appts[k].time.Some?
        && StartsWithinHour(appts[k].time.value, when.value)) ==> k in taken;
      if taken != [] then
        assert taken[0] in taken;
        false
      else true
  }

  /** An appointment that starts half an hour before `t` does not make `t`
      taken: the test never looks back from `t`, so two bookings of one doctor
      may overlap. */
  lemma EarlierOverlapGoesUnseen(d: int, p: int, t: int)
    ensures IsSlotFree(map[1 := Appointment(Some(d), Some(p), Some(t - 30 * NANOS_PER_MINUTE), SCHEDULED)], Some(d), Some(t))
  {
  }

  /** An appointment of the doctor starting inside the hour makes it taken. */
  lemma LaterStartBlocks(appts: map<int, Appointment>, k: int, t: int)
    requires k in appts && appts[k].doctorId.Some? && appts[k].time.Some?
    requires StartsWithinHour(appts[k].time.value, t)
    ensures !IsSlotFree(appts, appts[k].doctorId, Some(t))
  {
  }

  /** `sameSlot`: `Objects.equals` on the two times; two missing times are equal. */
  function SameSlot(a: Option<int>, b: Option<int>): (same: bool)
    ensures same <==> (a.None? && b.None?) || (a.Some? && b.Some? && a.value == b.value)
  {
    a == b
  }

  /** No two appointments of one doctor start at the same instant. */
  predicate DistinctStarts(appts: map<int, Appointment>) {
    forall j, k :: j in appts && k in appts && j != k && appts[j].doctorId.Some?
      && appts[j].doctorId == appts[k].doctorId && appts[j].time.Some? && appts[k].time.Some?
      ==> appts[j].time.value != appts[k].time.value
  }

  /** Writing an appointment whose slot is free, under any id, keeps starts distinct. */
  lemma FreeSlotKeepsStartsDistinct(appts: map<int, Appointment>, id: int, a: Appointment)
    requires DistinctStarts(appts)
    requires IsSlotFree(appts, a.doctorId, a.time)
    ensures DistinctStarts(appts[id := a])
  {
    var next := appts[id := a];
    forall j, k | j in next && k in next && j != k && next[j].doctorId.Some?
      && next[j].doctorId == next[k].doctorId && next[j].time.Some? && next[k].time.Some?
      ensures next[j].time.value != next[k].time.value
    {
      if j == id {
        assert k in appts && !StartsWithinHour(appts[k].time.value, a.time.value);
      } else if k == id {
        assert j in appts && !StartsWithinHour(appts[j].time.value, a.time.value);
      }
    }
  }

  /** The checks `bookAppointment` makes before saving: doctor, patient and
      time are given, both ids exist, and the slot is free. */
  predicate CanBook(appts: map<int, Appointment>, doctors: map<int, Doctor>, patients: map<int, Patient>,
    appointment: Option<Appointment>)
  {
    appointment.Some?
    && appointment.value.doctorId.Some? && appointment.value.doctorId.value in doctors
    && appointment.value.patientId.Some? && appointment.value.patientId.value in patients
    && appointment.value.time.Some?
    && IsSlotFree(appts, appointment.value.doctorId, appointment.value.time)
  }

  /** What `validateAppointmentUpdate` decides; `Throws` is the null dereference
      raised when the stored appointment has no doctor but one is needed. */
  datatype UpdateCheck = Pass | InvalidDoctor | TimeNotAvailable | Throws

  /** `validateAppointmentUpdate`: first a supplied doctor that differs from
      the stored one must exist, then a supplied time that differs from the
      stored one must be free for the doctor the row would have after the
      update (the supplied one, else the stored one). */
  function ValidateAppointmentUpdate(appts: map<int, Appointment>, doctors: map<int, Doctor>,
    existing: Appointment, updated: Appointment): (r: UpdateCheck)
    ensures r == Throws <==> (existing.doctorId.None?
      && (updated.doctorId.Some? || (updated.time.Some? && !SameSlot(existing.time, updated.time))))
    ensures r == InvalidDoctor <==> (existing.doctorId.Some? && updated.doctorId.Some?
      && updated.doctorId != existing.doctorId && updated.doctorId.value !in doctors)
    ensures r == TimeNotAvailable <==> (existing.doctorId.Some?
      && !(updated.doctorId.Some? && updated.doctorId != existing.doctorId && updated.doctorId.value !in doctors)
      && updated.time.Some? && !SameSlot(existing.time, updated.time)
      && !IsSlotFree(appts, Merged(existing, updated).doctorId, updated.time))
  {
    if updated.doctorId.Some? && existing.doctorId.None? then Throws
    else if updated.doctorId.Some? && updated.doctorId != existing.doctorId && updated.doctorId.value !in doctors then
      InvalidDoctor
    else if updated.time.Some? && !SameSlot(existing.time, updated.time) then
      if existing.doctorId.None? && updated.doctorId.None? then Throws
      else if !IsSlotFree(appts, Merged(existing, updated).doctorId, updated.time) then TimeNotAvailable
      else Pass
    else Pass
  }

  /** The stored appointment after a successful update: doctor and time
      replaced only when supplied, status always overwritten, patient kept. */
  function Merged(existing: Appointment, updated: Appointment): (a: Appointment)
    ensures a.patientId == existing.patientId && a.status == updated.status
    ensures a.doctorId == (if updated.doctorId.Some? then updated.doctorId else existing.doctorId)
    ensures a.time == (if updated.time.Some? then updated.time else existing.time)
  {
    var withDoctor := if updated.doctorId.Some? then existing.(doctorId := updated.doctorId) else existing;
    var withTime := if updated.time.Some? then withDoctor.(time := updated.time) else withDoctor;
    withTime.(status := updated.status)
  }

  /** A status code with the appointment table it leaves behind. */
  datatype Outcome = Outcome(code: int, rows: map<int, Appointment>)

  /** `updateAppointment` with its checks made against the table as it was
      before the call: 400 for a missing payload or id, 404 for an unknown
      id, 500 for the null dereference on an appointment without a doctor, 400
      when validation fails or the supplied doctor does not exist, and
      otherwise 200 with the merged row. Only 200 changes the table. */
  function UpdateOutcome(appts: map<int, Appointment>, doctors: map<int, Doctor>,
    id: Option<int>, updated: Option<Appointment>): (r: Outcome)
    ensures r.code in {200, 400, 404, 500}
    ensures r.code != 200 ==> r.rows == appts
    ensures updated.None? || id.None? ==> r.code == 400
    ensures updated.Some? && id.Some? ==> (r.code == 404 <==> id.value !in appts)
    ensures r.code == 200 ==> (updated.Some? && id.Some? && id.value in appts
      && r.rows == appts[id.value := Merged(appts[id.value], updated.value)])
    ensures r.code == 200 && updated.value.time.Some? && !SameSlot(appts[id.value].time, updated.value.time) ==>
      IsSlotFree(appts, Merged(appts[id.value], updated.value).doctorId, updated.value.time)
    ensures r.code == 200 && updated.value.doctorId.Some? ==> updated.value.doctorId.value in doctors
    ensures updated.Some? && id.Some? && id.value in appts ==>
      var existing, u := appts[id.value], updated.value;
      (r.code == 200 <==>
        (ValidateAppointmentUpdate(appts, doctors, existing, u) == Pass
         && (u.doctorId.Some? ==> u.doctorId.value in doctors)
         && !(u.time.Some? && existing.doctorId.None? && u.doctorId.None?)))
      && (r.code == 500 <==> existing.doctorId.None? && (u.doctorId.Some? || u.time.Some?))
  {
    if updated.None? || id.None? then Outcome(400, appts)
    else if id.value !in appts then Outcome(404, appts)
    else
      var existing := appts[id.value];
      var u := updated.value;
      match ValidateAppointmentUpdate(appts, doctors, existing, u)
      case Throws => Outcome(500, appts)
      case InvalidDoctor => Outcome(400, appts)
      case TimeNotAvailable => Outcome(400, appts)
      case Pass =>
        if u.doctorId.Some? && u.doctorId.value !in doctors then Outcome(400, appts)
        else if u.time.Some? && existing.doctorId.None? && u.doctorId.None? then Outcome(500, appts)
        else Outcome(200, appts[id.value := Merged(existing, u)])
  }

  /** `updateAppointment` as written. The supplied doctor is set on the
      managed entity before the second free-slot query, and that query
      flushes the pending change first, so the query sees the appointment
      itself under its new doctor. When it finds it, the method answers 409
      and returns normally, so the transaction commits the doctor change. */
  function UpdateAsWritten(appts: map<int, Appointment>, doctors: map<int, Doctor>,
    id: Option<int>, updated: Option<Appointment>): (r: Outcome)
    ensures r.code == 409 ==> (updated.Some? && id.Some? && id.value in appts
      && r.rows == appts[id.value := appts[id.value].(doctorId := updated.value.doctorId)])
  {
    if updated.None? || id.None? then Outcome(400, appts)
    else if id.value !in appts then Outcome(404, appts)
    else
      var existing := appts[id.value];
      var u := updated.value;
      match ValidateAppointmentUpdate(appts, doctors, existing, u)
      case Throws => Outcome(500, appts)
      case InvalidDoctor => Outcome(400, appts)
      case TimeNotAvailable => Outcome(400, appts)
      case Pass =>
        if u.doctorId.Some? && u.doctorId.value !in doctors then Outcome(400, appts)
        else
          var withDoctor := if u.doctorId.Some? then existing.(doctorId := u.doctorId) else existing;
          if u.time.Some? && withDoctor.doctorId.None? then Outcome(500, appts)
          else
            var flushed := appts[id.value := withDoctor];
            if u.time.Some? && !SameSlot(existing.time, u.time) && !IsSlotFree(flushed, withDoctor.doctorId, u.time) then
              Outcome(409, flushed)
            else Outcome(200, appts[id.value := Merged(existing, u)])
  }

  /** Apart from the 409 it adds, the as-written update answers and writes
      what the checked one does. */
  lemma AsWrittenAgreesOtherwise(appts: map<int, Appointment>, doctors: map<int, Doctor>,
    id: Option<int>, updated: Option<Appointment>)
    ensures UpdateAsWritten(appts, doctors, id, updated).code != 409 ==>
      UpdateAsWritten(appts, doctors, id, updated) == UpdateOutcome(appts, doctors, id, updated)
  {
    if updated.Some? && id.Some? && id.value in appts {
      var existing := appts[id.value];
      var u := updated.value;
      if ValidateAppointmentUpdate(appts, doctors, existing, u) == Pass
        && !(u.doctorId.Some? && u.doctorId.value !in doctors)
      {
        var withDoctor := if u.doctorId.Some? then existing.(doctorId := u.doctorId) else existing;
        assert u.time.Some? && withDoctor.doctorId.None? <==> u.time.Some? && existing.doctorId.None? && u.doctorId.None?;
      }
    }
  }

  /** The example that shows it: doctors 10 and 11, and appointment 1 of
      doctor 10 at 10:00 on day 0. */
  const EXAMPLE_DOCTORS: map<int, Doctor> := map[10 := Doctor("A", "", "a@x", "", "", []), 11 := Doctor("B", "", "b@x", "", "", [])]
  const EXAMPLE_STORED: Appointment := Appointment(Some(10), Some(20), Some(10 * NANOS_PER_HOUR), SCHEDULED)

  /** The request: move it to doctor 11 at 9:30. */
  const EXAMPLE_REQUEST: Appointment := Appointment(Some(11), None, Some(10 * NANOS_PER_HOUR - 30 * NANOS_PER_MINUTE), SCHEDULED)

  /** Validation passes: doctor 11 exists and has nothing booked. */
  lemma ExampleValidates()
    ensures ValidateAppointmentUpdate(map[1 := EXAMPLE_STORED], EXAMPLE_DOCTORS, EXAMPLE_STORED, EXAMPLE_REQUEST) == Pass
  {
    assert IsSlotFree(map[1 := EXAMPLE_STORED], Some(11), EXAMPLE_REQUEST.time);
  }

  /** As written: validation finds doctor 11 free at 9:30, the second query
      then finds the appointment itself (now under doctor 11, still at
      10:00), and the answer is 409 with the doctor change kept. */
  lemma AsWrittenKeepsDoctorChange()
    ensures UpdateAsWritten(map[1 := EXAMPLE_STORED], EXAMPLE_DOCTORS, Some(1), Some(EXAMPLE_REQUEST))
      == Outcome(409, map[1 := EXAMPLE_STORED.(doctorId := Some(11))])
  {
    var moved := map[1 := EXAMPLE_STORED.(doctorId := Some(11))];
    ExampleValidates();
    LaterStartBlocks(moved, 1, EXAMPLE_REQUEST.time.value);
    assert map[1 := EXAMPLE_STORED][1 := EXAMPLE_STORED.(doctorId := Some(11))] == moved;
  }

  /** Checked against the table as it was, the same request moves the
      appointment to doctor 11 at 9:30. */
  lemma CheckedUpdateMoves()
    ensures UpdateOutcome(map[1 := EXAMPLE_STORED], EXAMPLE_DOCTORS, Some(1), Some(EXAMPLE_REQUEST))
      == Outcome(200, map[1 := EXAMPLE_REQUEST.(patientId := Some(20))])
  {
    ExampleValidates();
    assert Merged(EXAMPLE_STORED, EXAMPLE_REQUEST) == EXAMPLE_REQUEST.(patientId := Some(20));
  }

  /** The two side by side: the same request is refused with a change
      committed as written, and accepted when checked first. */
  lemma ConflictKeepsDoctorChange()
    ensures var appts := map[1 := EXAMPLE_STORED];
      var asWritten := UpdateAsWritten(appts, EXAMPLE_DOCTORS, Some(1), Some(EXAMPLE_REQUEST));
      asWritten.code == 409 && asWritten.rows != appts
      && UpdateOutcome(appts, EXAMPLE_DOCTORS, Some(1), Some(EXAMPLE_REQUEST)).code == 200
  {
    AsWrittenKeepsDoctorChange();
    CheckedUpdateMoves();
    assert map[1 := EXAMPLE_STORED.(doctorId := Some(11))][1] != map[1 := EXAMPLE_STORED][1];
  }

  /** Without a doctor change the as-written update is the checked one: the
      second query repeats validation's on the same table. */
  lemma SameDoctorNoLateConflict(appts: map<int, Appointment>, doctors: map<int, Doctor>,
    id: Option<int>, updated: Option<Appointment>)
    requires updated.Some? && id.Some? && id.value in appts
    requires updated.value.doctorId.None? || updated.value.doctorId == appts[id.value].doctorId
    ensures UpdateAsWritten(appts, doctors, id, updated) == UpdateOutcome(appts, doctors, id, updated)
  {
    var existing := appts[id.value];
    var u := updated.value;
    var withDoctor := if u.doctorId.Some? then existing.(doctorId := u.doctorId) else existing;
    assert withDoctor == existing;
    assert appts[id.value := withDoctor] == appts;
  }

  /** Supplying the stored time again is never a conflict, whatever else is
      booked, with the stored doctor or with any existing doctor. */
  lemma SameInstantIsExempt(appts: map<int, Appointment>, doctors: map<int, Doctor>, id: int, updated: Appointment)
    requires id in appts && appts[id].doctorId.Some?
    requires updated.doctorId.Some? ==> updated.doctorId.value in doctors
    requires updated.time == appts[id].time
    ensures UpdateOutcome(appts, doctors, Some(id), Some(updated)).code == 200
  {
  }

  /** Moving an appointment to a time less than an hour before its own start
      is refused: its own row blocks the new slot. */
  lemma OwnRowBlocksEarlierMove(appts: map<int, Appointment>, doctors: map<int, Doctor>, id: int, updated: Appointment)
    requires id in appts && appts[id].doctorId.Some? && appts[id].time.Some?
    requires updated.doctorId.None? && updated.time.Some?
    requires updated.time.value < appts[id].time.value < updated.time.value + NANOS_PER_HOUR
    ensures UpdateOutcome(appts, doctors, Some(id), Some(updated)).code == 400
  {
    LaterStartBlocks(appts, id, updated.time.value);
  }

  /** The outcome of a doctor's day view. */
  datatype DayView = NotADoctor | InvalidToken | DateRequired | Appointments(ids: seq<int>)

  /** The day list of doctor `d`: the day's window query, or its patient-name
      variant for a non-blank `pname` (trimmed), re-sorted by time. */
  function DayList(appts: map<int, Appointment>, patients: map<int, Patient>,
    d: int, pname: Option<string>, date: int): (ids: seq<int>)
    ensures forall k :: k in ids <==> (k in appts && InWindow(appts[k], d, StartOfDay(date), EndOfDay(date))
      && (pname.Some? && !IsBlank(pname.value) ==> PatientNameMatches(appts[k], patients, Trim(pname.value))))
    ensures Distinct(ids) && SortedBy(ids, ByTime(appts))
  {
    var start := StartOfDay(date);
    var end := EndOfDay(date);
    var results :=
      if pname.Some? && !IsBlank(pname.value) then
        FindByDoctorIdAndPatientNameAndTimeBetween(appts, patients, d, Trim(pname.value), start, end)
      else FindByDoctorIdAndTimeBetween(appts, d, start, end);
    SortByKeepsSorted(results, ByTime(appts));
    SortBy(results, ByTime(appts))
  }

  /** `getAppointment`: the token must name one doctor (no such doctor:
      `NotADoctor`; several: the lookup throws, caught as `InvalidToken`) and
      a date is required; then that doctor's appointments of the day,
      narrowed to patients whose name contains the trimmed `pname` when one
      is given, ascending by time. */
  function GetAppointment(parse: string -> Option<string>, token: Option<string>,
    pname: Option<string>, date: Option<int>,
    doctors: map<int, Doctor>, patients: map<int, Patient>, appts: map<int, Appointment>): (r: DayView)
    ensures var lookup := DoctorRepo.FindByEmail(doctors, ExtractIdentifier(parse, token));
      (r == NotADoctor <==> lookup.NotFound?) && (r == InvalidToken <==> lookup.Ambiguous?)
      && (r == DateRequired <==> lookup.Found? && date.None?)
      && (r.Appointments? ==> lookup.Found? && date.Some? && r.ids == DayList(appts, patients, lookup.id, pname, date.value))
  {
    match DoctorRepo.FindByEmail(doctors, ExtractIdentifier(parse, token))
    case NotFound => NotADoctor
    case Ambiguous => InvalidToken
    case Found(d) =>
      if date.None? then DateRequired
      else Appointments(DayList(appts, patients, d, pname, date.value))
  }

  /** The appointment service over the tables it is given. */
  class AppointmentService {
    const appointments: Table<Appointment>
    const doctors: Table<Doctor>
    const patients: Table<Patient>

    ghost predicate Valid()
      reads this, appointments
    {
      appointments.Valid()
    }

    constructor (appointments: Table<Appointment>, doctors: Table<Doctor>, patients: Table<Patient>)
      requires appointments.Valid()
      ensures this.appointments == appointments && this.doctors == doctors && this.patients == patients
      ensures Valid()
    {
      this.appointments := appointments;
      this.doctors := doctors;
      this.patients := patients;
    }

    /** `bookAppointment`: 1 and the appointment saved exactly when every
        check passes; 0 and the table unchanged otherwise. */
    method BookAppointment(id: Option<int>, appointment: Option<Appointment>) returns (code: int)
      requires Valid()
      modifies appointments
      ensures Valid()
      ensures code == 1 <==> CanBook(old(appointments.rows), doctors.rows, patients.rows, appointment)
      ensures code != 1 ==> code == 0 && appointments.rows == old(appointments.rows)
      ensures code == 1 && id.Some? && id.value in old(appointments.rows) ==>
        appointments.rows == old(appointments.rows)[id.value := appointment.value]
      ensures code == 1 && !(id.Some? && id.value in old(appointments.rows)) ==>
        exists k :: k !in old(appointments.rows) && appointments.rows == old(appointments.rows)[k := appointment.value]
    {
      if appointment.None? || appointment.value.doctorId.None? || appointment.value.patientId.None?
        || appointment.value.time.None?
      {
        return 0;
      }
      var a := appointment.value;
      if a.doctorId.value !in doctors.rows || a.patientId.value !in patients.rows {
        return 0;
      }
      if !IsSlotFree(appointments.rows, a.doctorId, a.time) {
        return 0;
      }
      var saved := appointments.Save(id, a);
      code := 1;
    }

    /** `updateAppointment`, with every check made before the stored row is
        touched: the answer and the new table are `UpdateOutcome`'s. */
    method UpdateAppointment(id: Option<int>, updated: Option<Appointment>) returns (code: int)
      requires Valid()
      modifies appointments
      ensures Valid()
      ensures code == UpdateOutcome(old(appointments.rows), doctors.rows, id, updated).code
      ensures appointments.rows == UpdateOutcome(old(appointments.rows), doctors.rows, id, updated).rows
    {
      if updated.None? || id.None? {
        return 400;
      }
      if id.value !in appointments.rows {
        return 404;
      }
      var existing := appointments.rows[id.value];
      var u := updated.value;
      var check := ValidateAppointmentUpdate(appointments.rows, doctors.rows, existing, u);
      if check == Throws {
        return 500;
      }
      if check != Pass {
        return 400;
      }
      if u.doctorId.Some? {
        if u.doctorId.value !in doctors.rows {
          return 400;
        }
        existing := existing.(doctorId := u.doctorId);
      }
      if u.time.Some? {
        if existing.doctorId.None? {
          return 500;
        }
        existing := existing.(time := u.time);
      }
      existing := existing.(status := u.status);
      var saved := appointments.Save(id, existing);
      code := 200;
    }

    /** `cancelAppointment`: 404 for an unknown id; then the token must name
        one patient (none: 403; several: the lookup throws, caught as 401)
        who owns the appointment (else 403); only then is that row deleted. */
    method CancelAppointment(id: int, parse: string -> Option<string>, token: Option<string>) returns (code: int)
      requires Valid()
      modifies appointments
      ensures Valid()
      ensures id !in old(appointments.rows) ==> code == 404
      ensures var requester := Accounts.FindPatientByEmail(patients.rows, ExtractIdentifier(parse, token));
        id in old(appointments.rows) ==>
          (requester.NotFound? ==> code == 403) && (requester.Ambiguous? ==> code == 401)
          && (requester.Found? ==> (code == 200 <==> old(appointments.rows)[id].patientId == Some(requester.id)))
          && (requester.Found? && code != 200 ==> code == 403)
      ensures code == 200 ==> appointments.rows == old(appointments.rows) - {id}
      ensures code != 200 ==> appointments.rows == old(appointments.rows)
    {
      if id !in appointments.rows {
        return 404;
      }
      var appt := appointments.rows[id];
      match Accounts.FindPatientByEmail(patients.rows, ExtractIdentifier(parse, token))
      case NotFound =>
        return 403;
      case Ambiguous =>
        return 401;
      case Found(requester) =>
        if appt.patientId != Some(requester) {
          return 403;
        }
        appointments.DeleteById(id);
        code := 200;
    }

    /** `changeStatus`: 404 for an unknown id, else only that status changes. */
    method ChangeStatus(id: int, status: int) returns (code: int)
      requires Valid()
      modifies appointments
      ensures Valid()
      ensures code == 404 <==> id !in old(appointments.rows)
      ensures code != 404 ==> (code == 200
        && appointments.rows == old(appointments.rows)[id := old(appointments.rows)[id].(status := status)])
      ensures code == 404 ==> appointments.rows == old(appointments.rows)
    {
      if id !in appointments.rows {
        return 404;
      }
      UpdateStatus(appointments, status, id);
      code := 200;
    }
  }
}

=== FILE: controllers.dfy ===
/**
 * The two controller endpoints that compose services: booking (token check,
 * then the slot check, then the booking) and saving a prescription (token
 * check, then the save, then marking the appointment completed).
 */
module Controllers {
  import opened Wrappers
  import opened Tables
  import opened Models
  import opened Tokens
  import opened Booking
  import opened Prescriptions
  import CentralService

  /** The booking endpoint over the appointment service and the admin table
      its token check reads. */
  class AppointmentController {
    const appointmentService: AppointmentService
    const admins: Table<Admin>

    constructor (appointmentService: AppointmentService, admins: Table<Admin>)
      ensures this.appointmentService == appointmentService && this.admins == admins
    {
      this.appointmentService := appointmentService;
      this.admins := admins;
    }

    /** The token names a patient. */
    predicate PatientToken(parse: string -> Option<string>, token: string)
      reads admins, appointmentService.doctors, appointmentService.patients
    {
      ValidateToken(parse, Some(token), Some("patient"), admins.rows, appointmentService.doctors.rows, appointmentService.patients.rows)
    }

    /** `validateAppointment` on the current appointment table. */
    function SlotCheck(appointment: Option<Appointment>): int
      reads appointmentService.doctors, appointmentService.appointments
    {
      CentralService.ValidateAppointment(appointmentService.doctors.rows, appointmentService.appointments.rows, appointment)
    }

    /** `bookAppointment`: 401 unless the token is a patient's; 400 when the
        slot check names an unknown doctor and 409 when it refuses the slot,
        both with nothing stored; then 201 when the booking goes through and
        500 when it does not, which also stores nothing. */
    method BookAppointment(parse: string -> Option<string>, token: string, id: Option<int>, appointment: Option<Appointment>)
      returns (code: int)
      requires appointmentService.Valid()
      modifies appointmentService.appointments
      ensures appointmentService.Valid()
      ensures !PatientToken(parse, token) ==> code == 401
      ensures PatientToken(parse, token) && old(SlotCheck(appointment)) == -1 ==> code == 400
      ensures PatientToken(parse, token) && old(SlotCheck(appointment)) == 0 ==> code == 409
      ensures code == 201 <==> (PatientToken(parse, token) && old(SlotCheck(appointment)) == 1
        && CanBook(old(appointmentService.appointments.rows), appointmentService.doctors.rows,
          appointmentService.patients.rows, appointment))
      ensures PatientToken(parse, token) && old(SlotCheck(appointment)) == 1 && code != 201 ==> code == 500
      ensures code != 201 ==> appointmentService.appointments.rows == old(appointmentService.appointments.rows)
      ensures code == 201 && id.Some? && id.value in old(appointmentService.appointments.rows) ==>
        appointmentService.appointments.rows == old(appointmentService.appointments.rows)[id.value := appointment.value]
      ensures code == 201 && !(id.Some? && id.value in old(appointmentService.appointments.rows)) ==>
        exists k :: k !in old(appointmentService.appointments.rows)
          && appointmentService.appointments.rows == old(appointmentService.appointments.rows)[k := appointment.value]
    {
      var tokenStatus := CentralService.TokenStatus(parse, Some(token), "patient",
        admins.rows, appointmentService.doctors.rows, appointmentService.patients.rows);
      assert tokenStatus == 200 <==> PatientToken(parse, token);
      if tokenStatus != 200 {
        return 401;
      }
      var check := SlotCheck(appointment);
      if check == -1 {
        return 400;
      } else if check == 0 {
        return 409;
      }
      var booked := appointmentService.BookAppointment(id, appointment);
      if booked == 1 {
        code := 201;
      } else {
        code := 500;
      }
    }
  }

  /** The prescription endpoint over the prescription and appointment
      services and the admin table its token check reads. */
  class PrescriptionController {
    const prescriptionService: PrescriptionService
    const appointmentService: AppointmentService
    const admins: Table<Admin>

    constructor (prescriptionService: PrescriptionService, appointmentService: AppointmentService, admins: Table<Admin>)
      ensures this.prescriptionService == prescriptionService
      ensures this.appointmentService == appointmentService && this.admins == admins
    {
      this.prescriptionService := prescriptionService;
      this.appointmentService := appointmentService;
      this.admins := admins;
    }

    /** `savePrescription`: 401 unless the token is a doctor's; otherwise the
        service's answer, and on 201 the appointment the prescription names,
        when it exists, is marked completed. Nothing changes on any other
        answer, and at most one prescription per appointment still holds. */
    method SavePrescription(parse: string -> Option<string>, token: string, id: Option<int>, prescription: Option<Prescription>)
      returns (code: int)
      requires prescriptionService.prescriptions.Valid() && appointmentService.Valid()
      requires AtMostOnePerAppointment(prescriptionService.prescriptions.rows)
      modifies prescriptionService.prescriptions, appointmentService.appointments
      ensures prescriptionService.prescriptions.Valid() && appointmentService.Valid()
      ensures AtMostOnePerAppointment(prescriptionService.prescriptions.rows)
      ensures var tokenOk := ValidateToken(parse, Some(token), Some("doctor"),
          admins.rows, appointmentService.doctors.rows, appointmentService.patients.rows);
        (!tokenOk ==> code == 401) && (tokenOk ==> code == 201 || code == 400)
        && (tokenOk ==> (code == 201 <==> (prescription.Some? && prescription.value.appointmentId.Some?
          && forall k :: k in old(prescriptionService.prescriptions.rows) ==>
            old(prescriptionService.prescriptions.rows)[k].appointmentId != prescription.value.appointmentId)))
      ensures code == 201 ==> exists k :: (k in prescriptionService.prescriptions.rows
        && prescriptionService.prescriptions.rows == old(prescriptionService.prescriptions.rows)[k := prescription.value])
      ensures code != 201 ==> (prescriptionService.prescriptions.rows == old(prescriptionService.prescriptions.rows)
        && appointmentService.appointments.rows == old(appointmentService.appointments.rows))
      ensures code == 201 ==> (prescription.Some? && prescription.value.appointmentId.Some?
        && var appointmentId := prescription.value.appointmentId.value;
          var before := old(appointmentService.appointments.rows);
          (appointmentId in before ==>
            appointmentService.appointments.rows == before[appointmentId := before[appointmentId].(status := COMPLETED)])
          && (appointmentId !in before ==> appointmentService.appointments.rows == before))
    {
      var tokenStatus := CentralService.TokenStatus(parse, Some(token), "doctor",
        admins.rows, appointmentService.doctors.rows, appointmentService.patients.rows);
      if tokenStatus != 200 {
        return 401;
      }
      code := prescriptionService.SavePrescription(id, prescription);
      if code == 201 && prescription.value.appointmentId.Some? {
        var statusCode := appointmentService.ChangeStatus(prescription.value.appointmentId.value, COMPLETED);
      }
    }
  }
}

=== FILE: doctor_repository.dfy ===
/**
 * The queries of DoctorRepository over the doctor table. List queries answer
 * with ids in id order (none of them has an ORDER BY).
 */
module DoctorRepo {
  import opened Wrappers
  import opened JavaText
  import opened Tables
  import opened Models

  /** `findByEmail`: exact, case-sensitive equality; a null email matches no row. */
  function FindByEmail(doctors: map<int, Doctor>, email: Option<string>): (r: Lookup)
    ensures r.Found? ==> r.id in doctors && email == Some(doctors[r.id].email)
    ensures r.NotFound? <==> forall k :: k in doctors ==> email != Some(doctors[k].email)
    ensures r.Found? ==> forall k :: k in doctors && email == Some(doctors[k].email) ==> k == r.id
    ensures r.Ambiguous? <==> exists j, k :: (j in doctors && k in doctors && j != k
      && email == Some(doctors[j].email) && email == Some(doctors[k].email))
  {
    FindUnique(doctors, (d: Doctor) => email == Some(d.email))
  }

  /** `findByNameLike`: `d.name LIKE CONCAT('%', :name, '%')`, case-sensitive. */
  function FindByNameLike(doctors: map<int, Doctor>, name: string): (r: seq<int>)
    ensures forall k :: k in r <==> k in doctors && Contains(doctors[k].name, name)
    ensures StrictlyIncreasing(r)
  {
    Select(doctors, (d: Doctor) => Contains(d.name, name))
  }

  /** An empty name pattern matches every doctor. */
  lemma EmptyNameMatchesAll(doctors: map<int, Doctor>)
    ensures forall k :: k in FindByNameLike(doctors, "") <==> k in doctors
  {
    forall k | k in doctors ensures Contains(doctors[k].name, "") {
      EmptyIsContained(doctors[k].name);
    }
  }

  /** `findByNameContainingIgnoreCaseAndSpecialtyIgnoreCase`: name substring and
      specialty equality, both ignoring case. */
  function FindByNameAndSpecialtyIgnoreCase(doctors: map<int, Doctor>, name: string, specialty: string): (r: seq<int>)
    ensures forall k :: k in r <==> (k in doctors && ContainsIgnoreCase(doctors[k].name, name)
      && EqualsIgnoreCase(doctors[k].specialty, specialty))
    ensures StrictlyIncreasing(r)
  {
    Select(doctors, (d: Doctor) => ContainsIgnoreCase(d.name, name) && EqualsIgnoreCase(d.specialty, specialty))
  }

  /** `findBySpecialtyIgnoreCase`. */
  function FindBySpecialtyIgnoreCase(doctors: map<int, Doctor>, specialty: string): (r: seq<int>)
    ensures forall k :: k in r <==> k in doctors && EqualsIgnoreCase(doctors[k].specialty, specialty)
    ensures StrictlyIncreasing(r)
  {
    Select(doctors, (d: Doctor) => EqualsIgnoreCase(d.specialty, specialty))
  }

  /** With an empty name the combined query is the specialty query. */
  lemma EmptyNameIsSpecialtyQuery(doctors: map<int, Doctor>, specialty: string)
    ensures FindByNameAndSpecialtyIgnoreCase(doctors, "", specialty) == FindBySpecialtyIgnoreCase(doctors, specialty)
  {
    var a := FindByNameAndSpecialtyIgnoreCase(doctors, "", specialty);
    var b := FindBySpecialtyIgnoreCase(doctors, specialty);
    forall k | k in doctors ensures ContainsIgnoreCase(doctors[k].name, "") {
      assert ToLower("") == "";
      EmptyIsContained(ToLower(doctors[k].name));
    }
    assert forall k :: k in a <==> k in b;
    SameMembersSameAscending(a, b);
  }

  /** `findAll`, in id order. */
  function FindAll(doctors: map<int, Doctor>): (r: seq<int>)
    ensures forall k :: k in r <==> k in doctors
    ensures StrictlyIncreasing(r)
  {
    KeysAscending(doctors.Keys)
  }
}

=== FILE: doctor_service.dfy ===
/**
 * DoctorService: free slots of a doctor on a date, the doctor searches with
 * their morning/afternoon filter, doctor login, and saving, updating and
 * deleting doctors. Doctor lists are lists of doctor ids in query order.
 */
module DoctorServices {
  import opened Wrappers
  import opened JavaText
  import opened Tables
  import opened Sorting
  import opened Streams
  import opened SlotTime
  import opened Models
  import opened AppointmentRepo
  import opened DoctorRepo
  import opened Tokens

  /** The doctor has an appointment on `day` whose start formats as `hhmm`. */
  predicate BookedOn(appts: map<int, Appointment>, doctorId: int, day: int, hhmm: string) {
    exists k :: k in appts && appts[k].doctorId == Some(doctorId) && appts[k].time.Some?
      && appts[k].time.value / NANOS_PER_DAY == day && FormatHHmm(appts[k].time.value) == hhmm
  }

  /** The "HH:mm" starts of the doctor's appointments found by the day's window query. */
  function BookedTimes(appts: map<int, Appointment>, doctorId: int, day: int): set<string> {
    var found := FindByDoctorIdAndTimeBetween(appts, doctorId, StartOfDay(day), EndOfDay(day));
    set k | k in found :: FormatHHmm(appts[k].time.value)
  }

  /** A row is found by the day's window query exactly when it is the
      doctor's and its date is that day. */
  lemma FoundOnDay(appts: map<int, Appointment>, doctorId: int, day: int, k: int)
    requires k in appts
    ensures k in FindByDoctorIdAndTimeBetween(appts, doctorId, StartOfDay(day), EndOfDay(day))
      <==> (appts[k].doctorId == Some(doctorId) && appts[k].time.Some? && appts[k].time.value / NANOS_PER_DAY == day)
  {
    if appts[k].time.Some? {
      DaySpan(day, appts[k].time.value);
    }
  }

  /** The booked times are the doctor's bookings that day. */
  lemma BookedTimesAreBookings(appts: map<int, Appointment>, doctorId: int, day: int)
    ensures forall x :: x in BookedTimes(appts, doctorId, day) <==> BookedOn(appts, doctorId, day, x)
  {
    var found := FindByDoctorIdAndTimeBetween(appts, doctorId, StartOfDay(day), EndOfDay(day));
    var r := BookedTimes(appts, doctorId, day);
    forall x ensures x in r <==> BookedOn(appts, doctorId, day, x) {
      if x in r {
        var k :| k in found && FormatHHmm(appts[k].time.value) == x;
        FoundOnDay(appts, doctorId, day, k);
      }
      if BookedOn(appts, doctorId, day, x) {
        var k :| k in appts && appts[k].doctorId == Some(doctorId) && appts[k].time.Some?
          && appts[k].time.value / NANOS_PER_DAY == day && FormatHHmm(appts[k].time.value) == x;
        FoundOnDay(appts, doctorId, day, k);
      }
    }
  }

  /** Sorting slots drawn from a canonical template orders them by time of day. */
  lemma SortedWhenCanonical(template: seq<string>, slots: seq<string>)
    requires forall s :: s in slots ==> s in template
    ensures AllCanonical(template) ==>
      forall i, j :: 0 <= i < j < |SortSlots(slots)| ==> SlotKey(SortSlots(slots)[i]) <= SlotKey(SortSlots(slots)[j])
  {
    if AllCanonical(template) {
      SortSlotsSorted(slots);
    }
  }

  /** The slot's normalised form is not among the booked times. */
  predicate Unbooked(booked: set<string>, slot: string) {
    NormalizeSlot(Some(slot)) !in booked
  }

  /** The template slots whose normalised form is not booked, sorted with
      `compareHHmm`. */
  function FreeSlots(template: seq<string>, booked: set<string>): (r: seq<string>)
    ensures forall s :: multiset(r)[s] == if Unbooked(booked, s) then multiset(template)[s] else 0
    ensures AllCanonical(template) ==> forall i, j :: 0 <= i < j < |r| ==> SlotKey(r[i]) <= SlotKey(r[j])
  {
    var free := Filter(template, (s: string) => Unbooked(booked, s));
    SortedWhenCanonical(template, free);
    SortSlots(free)
  }

  /** No appointment of the doctor that day starts at the slot's normalised time. */
  predicate IsFree(appts: map<int, Appointment>, doctorId: int, day: int, slot: string) {
    !BookedOn(appts, doctorId, day, NormalizeSlot(Some(slot)))
  }

  /** `getDoctorAvailability`: nothing for a missing doctor id or date or an
      unknown doctor; otherwise each template slot as often as the template
      lists it, unless its normalised form is the "HH:mm" start of one of the
      doctor's appointments that day; ascending by time when every slot is
      canonical. */
  function GetDoctorAvailability(doctors: map<int, Doctor>, appts: map<int, Appointment>,
    doctorId: Option<int>, date: Option<int>): (r: seq<string>)
    ensures doctorId.None? || date.None? || doctorId.value !in doctors ==> r == []
    ensures doctorId.Some? && date.Some? && doctorId.value in doctors ==>
      var template := doctors[doctorId.value].availableTimes;
      (forall s :: multiset(r)[s] == if IsFree(appts, doctorId.value, date.value, s) then multiset(template)[s] else 0)
      && (AllCanonical(template) ==> forall i, j :: 0 <= i < j < |r| ==> SlotKey(r[i]) <= SlotKey(r[j]))
  {
    if doctorId.None? || date.None? || doctorId.value !in doctors then []
    else
      var template := doctors[doctorId.value].availableTimes;
      if template == [] then template
      else
        BookedTimesAreBookings(appts, doctorId.value, date.value);
        FreeSlots(template, BookedTimes(appts, doctorId.value, date.value))
  }

  /** Every free slot comes from the doctor's template, and a template slot is
      free exactly when no appointment of the doctor that day starts at its
      normalised time. */
  lemma AvailabilityIsUnbookedTemplate(doctors: map<int, Doctor>, appts: map<int, Appointment>,
    doctorId: int, date: int, s: string)
    requires doctorId in doctors
    ensures s in GetDoctorAvailability(doctors, appts, Some(doctorId), Some(date)) <==>
      (s in doctors[doctorId].availableTimes && IsFree(appts, doctorId, date, s))
  {
    var r := GetDoctorAvailability(doctors, appts, Some(doctorId), Some(date));
    var template := doctors[doctorId].availableTimes;
    assert s in r <==> multiset(r)[s] > 0;
    assert s in template <==> multiset(template)[s] > 0;
  }

  /** Some slot of the doctor normalises into the wanted half of the day. */
  predicate HasSlotInHalf(d: Doctor, wantAM: bool) {
    exists s :: s in d.availableTimes && IsAM(NormalizeSlot(Some(s))) == wantAM
  }

  /** The half-day filter as a test on one doctor: no filter when `amOrPm` is
      missing or blank, and anything but "AM" (ignoring case) means PM. */
  predicate InHalf(d: Doctor, amOrPm: Option<string>) {
    amOrPm.None? || IsBlank(amOrPm.value) || HasSlotInHalf(d, EqualsIgnoreCase(amOrPm.value, "AM"))
  }

  /** `filterDoctorByTime`: the input unchanged for a missing or blank
      `amOrPm`; otherwise the doctors, in input order, that have a slot in the
      wanted half, so a doctor without slots is dropped. */
  function FilterDoctorByTime(doctors: map<int, Doctor>, base: seq<int>, amOrPm: Option<string>): (r: seq<int>)
    ensures amOrPm.None? || IsBlank(amOrPm.value) ==> r == base
    ensures forall k :: k in r <==> (k in base && (k in doctors ==> InHalf(doctors[k], amOrPm))
      && (amOrPm.Some? && !IsBlank(amOrPm.value) ==> k in doctors))
    ensures forall k :: multiset(r)[k] <= multiset(base)[k]
  {
    if amOrPm.None? || IsBlank(amOrPm.value) then base
    else
      var wantAM := EqualsIgnoreCase(amOrPm.value, "AM");
      Filter(base, (k: int) => k in doctors && HasSlotInHalf(doctors[k], wantAM))
  }

  /** The half-day filter keeps input order: filtering a list that is a
      front part followed by a back part lists the front part's doctors first. */
  lemma FilterDoctorByTimeKeepsOrder(doctors: map<int, Doctor>, front: seq<int>, back: seq<int>,
    amOrPm: Option<string>)
    ensures FilterDoctorByTime(doctors, front + back, amOrPm)
      == FilterDoctorByTime(doctors, front, amOrPm) + FilterDoctorByTime(doctors, back, amOrPm)
  {
    if !(amOrPm.None? || IsBlank(amOrPm.value)) {
      var wantAM := EqualsIgnoreCase(amOrPm.value, "AM");
      FilterAppend(front, back, (k: int) => k in doctors && HasSlotInHalf(doctors[k], wantAM));
    }
  }

  /** A doctor whose every slot is "HH:mm" is in the morning list exactly when
      some slot's hour is below 12. */
  lemma MorningMeansHourBelowTwelve(d: Doctor)
    requires forall s :: s in d.availableTimes ==> IsHHmm(s)
    ensures HasSlotInHalf(d, true) <==> exists s :: s in d.availableTimes && HourOf(s) < 12
  {
    forall s | s in d.availableTimes ensures NormalizeSlot(Some(s)) == s {
      CanonicalIsFixed(s);
    }
  }

  /** `getDoctors`: every doctor, in id order. */
  function GetDoctors(doctors: map<int, Doctor>): (r: seq<int>)
    ensures forall k :: k in r <==> k in doctors
    ensures StrictlyIncreasing(r)
  {
    FindAll(doctors)
  }

  /** `findDoctorByName`: case-sensitive name substring; a missing name lists everyone. */
  function FindDoctorByName(doctors: map<int, Doctor>, name: Option<string>): (r: seq<int>)
    ensures forall k :: k in r <==> k in doctors && Contains(doctors[k].name, name.GetOr(""))
    ensures name.None? ==> forall k :: k in r <==> k in doctors
  {
    EmptyNameMatchesAll(doctors);
    FindByNameLike(doctors, name.GetOr(""))
  }

  /** `filterDoctorsByNameSpecilityandTime`. */
  function FilterDoctorsByNameSpecialtyAndTime(doctors: map<int, Doctor>,
    name: Option<string>, specialty: Option<string>, amOrPm: Option<string>): (r: seq<int>)
    ensures forall k :: k in r <==> (k in doctors && ContainsIgnoreCase(doctors[k].name, name.GetOr(""))
      && EqualsIgnoreCase(doctors[k].specialty, specialty.GetOr("")) && InHalf(doctors[k], amOrPm))
  {
    FilterDoctorByTime(doctors, FindByNameAndSpecialtyIgnoreCase(doctors, name.GetOr(""), specialty.GetOr("")), amOrPm)
  }

  /** `filterDoctorByNameAndTime`: the name match here is case-sensitive. */
  function FilterDoctorByNameAndTime(doctors: map<int, Doctor>, name: Option<string>, amOrPm: Option<string>): (r: seq<int>)
    ensures forall k :: k in r <==> (k in doctors && Contains(doctors[k].name, name.GetOr(""))
      && InHalf(doctors[k], amOrPm))
  {
    FilterDoctorByTime(doctors, FindByNameLike(doctors, name.GetOr("")), amOrPm)
  }

  /** `filterDoctorByNameAndSpecility`. */
  function FilterDoctorByNameAndSpecialty(doctors: map<int, Doctor>, name: Option<string>, specialty: Option<string>): (r: seq<int>)
    ensures forall k :: k in r <==> (k in doctors && ContainsIgnoreCase(doctors[k].name, name.GetOr(""))
      && EqualsIgnoreCase(doctors[k].specialty, specialty.GetOr("")))
    ensures StrictlyIncreasing(r)
  {
    FindByNameAndSpecialtyIgnoreCase(doctors, name.GetOr(""), specialty.GetOr(""))
  }

  /** `filterDoctorByTimeAndSpecility`. */
  function FilterDoctorByTimeAndSpecialty(doctors: map<int, Doctor>, specialty: Option<string>, amOrPm: Option<string>): (r: seq<int>)
    ensures forall k :: k in r <==> (k in doctors && EqualsIgnoreCase(doctors[k].specialty, specialty.GetOr(""))
      && InHalf(doctors[k], amOrPm))
  {
    FilterDoctorByTime(doctors, FindBySpecialtyIgnoreCase(doctors, specialty.GetOr("")), amOrPm)
  }

  /** `filterDoctorBySpecility`. */
  function FilterDoctorBySpecialty(doctors: map<int, Doctor>, specialty: Option<string>): (r: seq<int>)
    ensures forall k :: k in r <==> k in doctors && EqualsIgnoreCase(doctors[k].specialty, specialty.GetOr(""))
    ensures StrictlyIncreasing(r)
  {
    FindBySpecialtyIgnoreCase(doctors, specialty.GetOr(""))
  }

  /** `filterDoctorsByTime`: the half-day filter over all doctors. */
  function FilterDoctorsByTime(doctors: map<int, Doctor>, amOrPm: Option<string>): (r: seq<int>)
    ensures forall k :: k in r <==> k in doctors && InHalf(doctors[k], amOrPm)
  {
    FilterDoctorByTime(doctors, FindAll(doctors), amOrPm)
  }

  /** `validateDoctor`: 400 for missing credentials; 401 when no doctor has
      the email or its password differs; a token for the email otherwise.
      Several doctors with the email make the lookup throw, and nothing
      catches it: 500 stands for that. */
  function ValidateDoctor(doctors: map<int, Doctor>, login: Option<Login>, nowMillis: int): (r: LoginReply)
    ensures login.None? || login.value.identifier.None? || login.value.password.None? ==> r == Rejected(400)
    ensures r.Issued? ==> login.Some? && exists k :: (k in doctors && Some(doctors[k].email) == login.value.identifier
      && Some(doctors[k].password) == login.value.password
      && r == Issued(GenerateToken(doctors[k].email, nowMillis), "DOCTOR", doctors[k].name))
    ensures login.Some? && login.value.identifier.Some? && login.value.password.Some? ==>
      (r == Rejected(401) <==> ((forall k :: k in doctors ==> Some(doctors[k].email) != login.value.identifier)
        || (UniqueDoctor(doctors, login.value.identifier.value)
          && exists k :: (k in doctors && Some(doctors[k].email) == login.value.identifier
            && Some(doctors[k].password) != login.value.password))))
    ensures r == Rejected(500) <==> (login.Some? && login.value.identifier.Some? && login.value.password.Some?
      && exists j, k :: (j in doctors && k in doctors && j != k
        && Some(doctors[j].email) == login.value.identifier && Some(doctors[k].email) == login.value.identifier))
    ensures (login.Some? && login.value.identifier.Some? && login.value.password.Some?
      && UniqueDoctor(doctors, login.value.identifier.value)) ==>
      forall k :: (k in doctors && Some(doctors[k].email) == login.value.identifier
        && Some(doctors[k].password) == login.value.password) ==>
        r == Issued(GenerateToken(doctors[k].email, nowMillis), "DOCTOR", doctors[k].name)
  {
    if login.None? || login.value.identifier.None? || login.value.password.None? then Rejected(400)
    else
      match FindByEmail(doctors, login.value.identifier)
      case Ambiguous => Rejected(500)
      case NotFound => Rejected(401)
      case Found(k) =>
        if Some(doctors[k].password) != login.value.password then Rejected(401)
        else Issued(GenerateToken(doctors[k].email, nowMillis), "DOCTOR", doctors[k].name)
  }

  /** The doctor service over the doctor and appointment tables it is given. */
  class DoctorService {
    const doctors: Table<Doctor>
    const appointments: Table<Appointment>

    ghost predicate Valid()
      reads this, doctors, appointments
    {
      doctors.Valid() && appointments.Valid()
    }

    constructor (doctors: Table<Doctor>, appointments: Table<Appointment>)
      requires doctors.Valid() && appointments.Valid()
      ensures this.doctors == doctors && this.appointments == appointments
      ensures Valid()
    {
      this.doctors := doctors;
      this.appointments := appointments;
    }

    /** `saveDoctor`: 0 for no doctor; -1 when a doctor already has the email;
        0 when several do (the lookup throws and the method catches it);
        otherwise the doctor is saved and 1. Only a save changes the table. */
    method SaveDoctor(id: Option<int>, doctor: Option<Doctor>) returns (code: int)
      requires Valid()
      modifies doctors
      ensures Valid()
      ensures doctor.None? ==> code == 0
      ensures doctor.Some? ==>
        (code == 1 <==> forall k :: k in old(doctors.rows) ==> old(doctors.rows)[k].email != doctor.value.email)
      ensures doctor.Some? ==> (code == -1 <==> UniqueDoctor(old(doctors.rows), doctor.value.email))
      ensures code != 1 ==> doctors.rows == old(doctors.rows)
      ensures code == 1 && id.Some? && id.value in old(doctors.rows) ==>
        doctors.rows == old(doctors.rows)[id.value := doctor.value]
      ensures code == 1 && !(id.Some? && id.value in old(doctors.rows)) ==>
        exists k :: k !in old(doctors.rows) && doctors.rows == old(doctors.rows)[k := doctor.value]
    {
      if doctor.None? {
        return 0;
      }
      var d := doctor.value;
      match FindByEmail(doctors.rows, Some(d.email))
      case Found(_) =>
        code := -1;
      case Ambiguous =>
        code := 0;
      case NotFound =>
        var saved := doctors.Save(id, d);
        code := 1;
    }

    /** `updateDoctor`: 0 without a doctor or an id; -1 for an unknown id;
        otherwise that row is overwritten and 1. */
    method UpdateDoctor(id: Option<int>, doctor: Option<Doctor>) returns (code: int)
      requires Valid()
      modifies doctors
      ensures Valid()
      ensures doctor.None? || id.None? ==> code == 0
      ensures doctor.Some? && id.Some? ==> (code == -1 <==> id.value !in old(doctors.rows))
      ensures code == 1 <==> doctor.Some? && id.Some? && id.value in old(doctors.rows)
      ensures code == 1 ==> doctors.rows == old(doctors.rows)[id.value := doctor.value]
      ensures code != 1 ==> doctors.rows == old(doctors.rows)
    {
      if doctor.None? || id.None? {
        return 0;
      }
      if id.value !in doctors.rows {
        return -1;
      }
      var saved := doctors.Save(id, doctor.value);
      code := 1;
    }

    /** `deleteDoctor`: -1 for an unknown id; otherwise the doctor's
        appointments go first, then the doctor, and 1. */
    method DeleteDoctor(id: int) returns (code: int)
      requires Valid()
      modifies doctors, appointments
      ensures Valid()
      ensures code == 1 <==> id in old(doctors.rows)
      ensures code != 1 ==> (code == -1 && doctors.rows == old(doctors.rows)
        && appointments.rows == old(appointments.rows))
      ensures code == 1 ==> doctors.rows == old(doctors.rows) - {id}
      ensures code == 1 ==> forall k :: k in appointments.rows <==>
        k in old(appointments.rows) && old(appointments.rows)[k].doctorId != Some(id)
      ensures forall k :: k in appointments.rows ==> appointments.rows[k] == old(appointments.rows)[k]
    {
      if id !in doctors.rows {
        return -1;
      }
      DeleteAllByDoctorId(appointments, id);
      doctors.DeleteById(id);
      code := 1;
    }
  }
}

=== FILE: java_text.dfy ===
/**
 * The few `java.lang.String` operations the scheduling services rely on:
 * `trim`, `isBlank`, ASCII case mapping, `contains`, `compareTo`,
 * `compareToIgnoreCase`, `equalsIgnoreCase`, and the SQL `LOWER(..) LIKE
 * '%..%'` test of the repositories. Strings are sequences of UTF-16 units
 * modelled as `char`.
 */
module JavaText {

  /** `Character.isWhitespace`: the Unicode space, line and paragraph separators
      except the non-breaking ones, plus the ASCII controls TAB..CR and FS..US. */
  predicate IsWhitespace(c: char) {
    ('\t' <= c <= '\r') || ('\U{1C}' <= c <= ' ') || c == '\U{1680}'
    || ('\U{2000}' <= c <= '\U{2006}') || ('\U{2008}' <= c <= '\U{200A}')
    || c == '\U{2028}' || c == '\U{2029}' || c == '\U{205F}' || c == '\U{3000}'
  }

  /** `String.isBlank`: empty or whitespace only. */
  predicate IsBlank(s: string) {
    forall i :: 0 <= i < |s| ==> IsWhitespace(s[i])
  }

  /** What `String.trim` removes: any character up to U+0020. */
  predicate IsTrimmed(c: char) {
    c <= ' '
  }

  /** No trimmable character at either end. */
  predicate IsTrimmedForm(s: string) {
    s == [] || (!IsTrimmed(s[0]) && !IsTrimmed(s[|s| - 1]))
  }

  /** `r` is `s` without its first `k` characters, all of them trimmable. */
  predicate DropsTrimmedPrefix(s: string, r: string, k: int) {
    0 <= k <= |s| && r == s[k..] && forall i :: 0 <= i < k ==> IsTrimmed(s[i])
  }

  /** `r` is `s` cut at `k`, everything after it trimmable. */
  predicate DropsTrimmedSuffix(s: string, r: string, k: int) {
    0 <= k <= |s| && r == s[..k] && forall i :: k <= i < |s| ==> IsTrimmed(s[i])
  }

  function TrimStart(s: string): (r: string)
    ensures r == [] || !IsTrimmed(r[0])
    ensures exists k :: DropsTrimmedPrefix(s, r, k)
  {
    if s != [] && IsTrimmed(s[0]) then
      var r := TrimStart(s[1..]);
      ghost var k :| DropsTrimmedPrefix(s[1..], r, k);
      assert DropsTrimmedPrefix(s, r, k + 1) by {
        assert r == s[k + 1..];
        forall i | 0 < i < k + 1 ensures IsTrimmed(s[i]) {
          assert s[i] == s[1..][i - 1];
        }
      }
      r
    else
      assert DropsTrimmedPrefix(s, s, 0);
      s
  }

  function TrimEnd(s: string): (r: string)
    ensures r == [] || !IsTrimmed(r[|r| - 1])
    ensures exists k :: DropsTrimmedSuffix(s, r, k)
  {
    if s != [] && IsTrimmed(s[|s| - 1]) then
      var p := s[..|s| - 1];
      var r := TrimEnd(p);
      ghost var k :| DropsTrimmedSuffix(p, r, k);
      assert DropsTrimmedSuffix(s, r, k) by {
        assert r == s[..k];
        forall i | k <= i < |s| - 1 ensures IsTrimmed(s[i]) {
          assert s[i] == p[i];
        }
      }
      r
    else
      assert DropsTrimmedSuffix(s, s, |s|);
      s
  }

  /** `r` is `s[i..j]`, and everything outside that window is trimmable. */
  predicate IsTrimWindow(s: string, r: string, i: int, j: int) {
    0 <= i <= j <= |s| && r == s[i..j]
    && (forall k :: 0 <= k < i ==> IsTrimmed(s[k]))
    && (forall k :: j <= k < |s| ==> IsTrimmed(s[k]))
  }

  /** `String.trim`: drop the characters up to U+0020 at both ends. */
  function Trim(s: string): (r: string)
    ensures IsTrimmedForm(r)
    ensures exists i, j :: IsTrimWindow(s, r, i, j)
  {
    var t := TrimStart(s);
    var r := TrimEnd(t);
    assert r != [] ==> r[0] == t[0];
    TrimWindowOfParts(s, t, r);
    r
  }

  lemma TrimWindowOfParts(s: string, t: string, r: string)
    requires exists i :: DropsTrimmedPrefix(s, t, i)
    requires exists m :: DropsTrimmedSuffix(t, r, m)
    ensures exists i, j :: IsTrimWindow(s, r, i, j)
  {
    var i :| DropsTrimmedPrefix(s, t, i);
    var m :| DropsTrimmedSuffix(t, r, m);
    assert r == s[i..i + m];
    forall k | i + m <= k < |s|
      ensures IsTrimmed(s[k])
    {
      assert s[k] == t[k - i];
    }
    assert IsTrimWindow(s, r, i, i + m);
  }

  /** A string without trimmable ends is its own trim. */
  lemma TrimOfTrimmedForm(s: string)
    requires IsTrimmedForm(s)
    ensures Trim(s) == s
  {
  }

  function UpperChar(c: char): char {
    if 'a' <= c <= 'z' then (c as int - 32) as char else c
  }

  function LowerChar(c: char): char {
    if 'A' <= c <= 'Z' then (c as int + 32) as char else c
  }

  /** `toUpperCase(Locale.ROOT)` on the ASCII letters. */
  function ToUpper(s: string): (r: string)
    ensures |r| == |s| && forall i :: 0 <= i < |s| ==> r[i] == UpperChar(s[i])
  {
    seq(|s|, i requires 0 <= i < |s| => UpperChar(s[i]))
  }

  /** `toLowerCase()` on the ASCII letters. */
  function ToLower(s: string): (r: string)
    ensures |r| == |s| && forall i :: 0 <= i < |s| ==> r[i] == LowerChar(s[i])
  {
    seq(|s|, i requires 0 <= i < |s| => LowerChar(s[i]))
  }

  /** Upper-casing neither creates nor removes a trimmable end. */
  lemma UpperKeepsTrimmedForm(s: string)
    requires IsTrimmedForm(s)
    ensures IsTrimmedForm(ToUpper(s))
  {
  }

  lemma UpperIdempotent(s: string)
    ensures ToUpper(ToUpper(s)) == ToUpper(s)
  {
  }

  /** Upper-casing only touches letters, which are never trimmed, so it
      commutes with dropping leading trimmable characters. */
  lemma {:induction false} UpperTrimStart(s: string)
    ensures TrimStart(ToUpper(s)) == ToUpper(TrimStart(s))
  {
    var u := ToUpper(s);
    if s != [] {
      UpperKeepsTrimmed(s[0]);
      assert u[0] == UpperChar(s[0]);
      if IsTrimmed(s[0]) {
        assert u[1..] == ToUpper(s[1..]);
        assert TrimStart(u) == TrimStart(u[1..]);
        UpperTrimStart(s[1..]);
      }
    }
  }

  /** Upper-casing a character never changes whether it is trimmed. */
  lemma UpperKeepsTrimmed(c: char)
    ensures IsTrimmed(UpperChar(c)) == IsTrimmed(c)
  {
  }

  /** The same at the other end. */
  lemma {:induction false} UpperTrimEnd(s: string)
    ensures TrimEnd(ToUpper(s)) == ToUpper(TrimEnd(s))
  {
    var u := ToUpper(s);
    if s != [] {
      UpperKeepsTrimmed(s[|s| - 1]);
      assert u[|s| - 1] == UpperChar(s[|s| - 1]);
      if IsTrimmed(s[|s| - 1]) {
        assert u[..|s| - 1] == ToUpper(s[..|s| - 1]);
        assert TrimEnd(u) == TrimEnd(u[..|u| - 1]);
        UpperTrimEnd(s[..|s| - 1]);
      }
    }
  }

  /** Trimming and upper-casing commute. */
  lemma UpperTrim(s: string)
    ensures Trim(ToUpper(s)) == ToUpper(Trim(s))
  {
    UpperTrimStart(s);
    UpperTrimEnd(TrimStart(s));
  }

  /** Lower-casing forgets any earlier upper-casing. */
  lemma LowerOfUpper(s: string)
    ensures ToLower(ToUpper(s)) == ToLower(s)
  {
  }

  /** `equalsIgnoreCase`. */
  predicate EqualsIgnoreCase(a: string, b: string) {
    ToLower(a) == ToLower(b)
  }

  /** `needle` occurs in `hay` starting at index `i`. */
  predicate OccursAt(hay: string, needle: string, i: int) {
    0 <= i <= |hay| - |needle| && hay[i..i + |needle|] == needle
  }

  /** `String.contains`: `needle` occurs contiguously in `hay`. */
  predicate Contains(hay: string, needle: string) {
    exists i | 0 <= i <= |hay| - |needle| :: OccursAt(hay, needle, i)
  }

  /** `LOWER(hay) LIKE LOWER(CONCAT('%', needle, '%'))`. */
  predicate ContainsIgnoreCase(hay: string, needle: string) {
    Contains(ToLower(hay), ToLower(needle))
  }

  /** The empty text is contained in every text, so an empty LIKE filter keeps everything. */
  lemma EmptyIsContained(hay: string)
    ensures Contains(hay, "")
  {
    assert OccursAt(hay, "", 0);
  }

  /** `String.compareTo`: the difference of the first differing units, or of the lengths. */
  function CompareTo(a: string, b: string): (r: int)
    ensures r == 0 <==> a == b
  {
    if a == [] || b == [] then |a| - |b|
    else if a[0] != b[0] then a[0] as int - b[0] as int
    else
      var r := CompareTo(a[1..], b[1..]);
      assert a == [a[0]] + a[1..] && b == [b[0]] + b[1..];
      r
  }

  /** `String.compareToIgnoreCase` on ASCII text. */
  function CompareToIgnoreCase(a: string, b: string): int {
    CompareTo(ToLower(a), ToLower(b))
  }
}

=== FILE: models.dfy ===
/**
 * The entities of the clinic: doctors, patients, admins and appointments, with
 * the derived accessors of `Appointment`. Instants are nanoseconds from the
 * epoch of the local time line, so `LocalDateTime`, `LocalDate` and
 * `LocalTime` become integers.
 */
module Models {
  import opened Wrappers
  import SlotTime

  const NANOS_PER_MINUTE: int := 60_000_000_000
  const NANOS_PER_HOUR: int := 60 * NANOS_PER_MINUTE
  const NANOS_PER_DAY: int := 24 * NANOS_PER_HOUR

  /** Appointment status codes. */
  const SCHEDULED: int := 0
  const COMPLETED: int := 1

  /** A doctor with the slot texts of a working day ("09:00", "9:00 AM", ...). */
  datatype Doctor = Doctor(
    name: string,
    specialty: string,
    email: string,
    password: string,
    phone: string,
    availableTimes: seq<string>)

  datatype Patient = Patient(name: string, email: string, password: string, phone: string, address: string)

  datatype Admin = Admin(username: string, password: string)

  /** Login credentials: an email for doctors and patients, a username for
      admins; either may be missing from the request. */
  datatype Login = Login(identifier: Option<string>, password: Option<string>)

  /** An appointment row; the doctor, the patient and the time are references
      that a request may leave out. The four fields are what the four-argument
      constructor stores. */
  datatype Appointment = Appointment(
    doctorId: Option<int>,
    patientId: Option<int>,
    time: Option<int>,
    status: int)

  /** `getEndTime`: one hour after the start. */
  function EndTime(a: Appointment): (r: Option<int>)
    ensures r.Some? <==> a.time.Some?
    ensures r.Some? ==> r.value - a.time.value == NANOS_PER_HOUR
  {
    match a.time
    case None => None
    case Some(t) => Some(t + NANOS_PER_HOUR)
  }

  /** `getAppointmentDate`: the day whose span holds the start. */
  function AppointmentDate(a: Appointment): (r: Option<int>)
    ensures r.Some? <==> a.time.Some?
    ensures r.Some? ==> StartOfDay(r.value) <= a.time.value <= EndOfDay(r.value)
  {
    match a.time
    case None => None
    case Some(t) => Some(t / NANOS_PER_DAY)
  }

  /** `getAppointmentTimeOnly`: the offset of the start within its day. */
  function AppointmentTimeOnly(a: Appointment): (r: Option<int>)
    ensures r.Some? <==> a.time.Some?
    ensures r.Some? ==> 0 <= r.value < NANOS_PER_DAY
  {
    match a.time
    case None => None
    case Some(t) => Some(t % NANOS_PER_DAY)
  }

  /** The date and the time of day put back together give the start. */
  lemma DateAndTimeRecombine(a: Appointment)
    requires a.time.Some?
    ensures StartOfDay(AppointmentDate(a).value) + AppointmentTimeOnly(a).value == a.time.value
  {
  }

  /** `date.atStartOfDay()`. */
  function StartOfDay(day: int): int {
    day * NANOS_PER_DAY
  }

  /** `date.plusDays(1).atStartOfDay().minusNanos(1)`: the last instant of the day. */
  function EndOfDay(day: int): int {
    (day + 1) * NANOS_PER_DAY - 1
  }

  /** An instant lies in the inclusive span of a day exactly when that day is its date. */
  lemma DaySpan(day: int, t: int)
    ensures StartOfDay(day) <= t <= EndOfDay(day) <==> t / NANOS_PER_DAY == day
  {
    var d := t / NANOS_PER_DAY;
    assert StartOfDay(d) <= t <= EndOfDay(d);
    if day < d {
      assert EndOfDay(day) < StartOfDay(d) by {
        assert (day + 1) * NANOS_PER_DAY <= d * NANOS_PER_DAY;
      }
    } else if day > d {
      assert EndOfDay(d) < StartOfDay(day) by {
        assert (d + 1) * NANOS_PER_DAY <= day * NANOS_PER_DAY;
      }
    }
  }

  /** `when.plusHours(1).minusNanos(1)` as the inclusive end of an hour: the
      inclusive span from `t` is the hour the appointment at `t` occupies. */
  lemma InclusiveHourIsHalfOpen(a: Appointment, u: int)
    requires a.time.Some?
    ensures a.time.value <= u <= a.time.value + NANOS_PER_HOUR - 1 <==> a.time.value <= u < EndTime(a).value
  {
  }

  /** `time.format("HH:mm")`: the hour and minute of the time of day. */
  function FormatHHmm(t: int): (r: string)
    ensures SlotTime.IsHHmm(r)
    ensures SlotTime.HourOf(r) < 24 && SlotTime.MinuteOf(r) < 60
    ensures var start := SlotTime.HourOf(r) * NANOS_PER_HOUR + SlotTime.MinuteOf(r) * NANOS_PER_MINUTE;
      start <= t % NANOS_PER_DAY < start + NANOS_PER_MINUTE
  {
    var timeOfDay := t % NANOS_PER_DAY;
    ClockOfDay(timeOfDay);
    SlotTime.FormatClock(timeOfDay / NANOS_PER_HOUR, timeOfDay % NANOS_PER_HOUR / NANOS_PER_MINUTE)
  }

  /** Splitting a time of day into whole hours and minutes. */
  lemma ClockOfDay(timeOfDay: int)
    requires 0 <= timeOfDay < NANOS_PER_DAY
    ensures var h, m := timeOfDay / NANOS_PER_HOUR, timeOfDay % NANOS_PER_HOUR / NANOS_PER_MINUTE;
      0 <= h < 24 && 0 <= m < 60
      && h * NANOS_PER_HOUR + m * NANOS_PER_MINUTE <= timeOfDay < h * NANOS_PER_HOUR + m * NANOS_PER_MINUTE + NANOS_PER_MINUTE
  {
    var h := timeOfDay / NANOS_PER_HOUR;
    var rest := timeOfDay % NANOS_PER_HOUR;
    var m := rest / NANOS_PER_MINUTE;
    assert timeOfDay == h * NANOS_PER_HOUR + rest && 0 <= rest < NANOS_PER_HOUR;
    assert rest == m * NANOS_PER_MINUTE + rest % NANOS_PER_MINUTE && 0 <= rest % NANOS_PER_MINUTE < NANOS_PER_MINUTE;
  }

  /** A formatted time is already canonical, so normalising it changes nothing. */
  lemma FormattedIsCanonical(t: int)
    ensures SlotTime.NormalizeSlot(Some(FormatHHmm(t))) == FormatHHmm(t)
  {
    SlotTime.CanonicalIsFixed(FormatHHmm(t));
  }
}

=== FILE: patient_service.dfy ===
/**
 * PatientService: registering a patient and the patient-side appointment
 * listings, each answering an error status or a list of appointment ids.
 */
module PatientServices {
  import opened Wrappers
  import opened JavaText
  import opened Tables
  import opened Sorting
  import opened Models
  import opened AppointmentRepo
  import opened Accounts
  import opened Tokens

  /** An error status, or the listed appointment ids (status 200). */
  datatype Listing = Failure(code: int) | Listed(ids: seq<int>)

  /** `mapConditionToStatus`: "future" is Scheduled and "past" Completed,
      after trimming and lower-casing; anything else, or nothing, maps to no
      status. */
  function MapConditionToStatus(condition: Option<string>): (r: Option<int>)
    ensures r == Some(SCHEDULED) <==> condition.Some? && ToLower(Trim(condition.value)) == "future"
    ensures r == Some(COMPLETED) <==> condition.Some? && ToLower(Trim(condition.value)) == "past"
    ensures r.Some? ==> r.value == SCHEDULED || r.value == COMPLETED
  {
    if condition.None? then None
    else
      var c := ToLower(Trim(condition.value));
      if c == "future" then Some(SCHEDULED)
      else if c == "past" then Some(COMPLETED)
      else None
  }

  /** Letter case does not matter: an upper-cased condition maps to the
      same status as the condition itself. */
  lemma ConditionIgnoresCase(s: string)
    ensures MapConditionToStatus(Some(ToUpper(s))) == MapConditionToStatus(Some(s))
  {
    UpperTrim(s);
    LowerOfUpper(Trim(s));
  }

  /** Two or more appointments, one of them without a time: sorting them by
      time makes the comparator dereference a null time. */
  predicate NullTimeCompared(appts: map<int, Appointment>, ids: seq<int>) {
    |ids| >= 2 && exists i :: 0 <= i < |ids| && (ids[i] !in appts || appts[ids[i]].time.None?)
  }

  /** `getPatientAppointment`: 400 for a missing id or a missing or blank
      token; 401 when the token names no patient; 500 when it names several
      (the lookup throws); 403 when the patient is not the one asked about;
      otherwise all the patient's appointments ascending by time (500 if a
      time is missing and the sort compares it). */
  function GetPatientAppointment(parse: string -> Option<string>, id: Option<int>, token: Option<string>,
    patients: map<int, Patient>, appts: map<int, Appointment>): (r: Listing)
    ensures id.None? || token.None? || IsBlank(token.value) ==> r == Failure(400)
    ensures id.Some? && token.Some? && !IsBlank(token.value) ==>
      var requester := FindPatientByEmail(patients, ExtractIdentifier(parse, token));
      (requester.NotFound? ==> r == Failure(401)) && (requester.Ambiguous? ==> r == Failure(500))
      && (requester.Found? && requester.id != id.value ==> r == Failure(403))
    ensures r.Listed? ==> (id.Some? && FindPatientByEmail(patients, ExtractIdentifier(parse, token)) == Found(id.value)
      && (forall k :: k in r.ids <==> k in appts && appts[k].patientId == id)
      && Distinct(r.ids) && SortedBy(r.ids, ByTime(appts)))
  {
    if id.None? || token.None? || IsBlank(token.value) then Failure(400)
    else
      match FindPatientByEmail(patients, ExtractIdentifier(parse, token))
      case NotFound => Failure(401)
      case Ambiguous => Failure(500)
      case Found(p) =>
        if p != id.value then Failure(403)
        else
          var mine := FindByPatientId(appts, id.value);
          if NullTimeCompared(appts, mine) then Failure(500)
          else
            StrictlyIncreasingIsDistinct(mine);
            PermutationKeepsDistinct(mine, SortBy(mine, ByTime(appts)));
            ByTimeIsPreorder(appts, mine);
            SortBySorted(mine, ByTime(appts));
            Listed(SortBy(mine, ByTime(appts)))
  }

  /** `filterByCondition`: 400 for a missing id or condition or one that is
      neither "past" nor "future"; otherwise exactly that patient's
      appointments with that status, ascending by time. */
  function FilterByCondition(condition: Option<string>, id: Option<int>, appts: map<int, Appointment>): (r: Listing)
    ensures r.Failure? <==> id.None? || MapConditionToStatus(condition).None?
    ensures r.Failure? ==> r.code == 400
    ensures r.Listed? ==> var status := MapConditionToStatus(condition).value;
      (forall k :: k in r.ids <==> k in appts && appts[k].patientId == id && appts[k].status == status)
      && Distinct(r.ids) && SortedBy(r.ids, ByTime(appts))
  {
    if id.None? || condition.None? then Failure(400)
    else
      match MapConditionToStatus(condition)
      case None => Failure(400)
      case Some(status) => Listed(FindByPatientIdAndStatus(appts, id.value, status))
  }

  /** `filterByDoctor`: 400 for a missing patient id or name; otherwise the
      patient's appointments whose doctor's name contains the trimmed name,
      ignoring case, ascending by time. */
  function FilterByDoctor(name: Option<string>, patientId: Option<int>,
    doctors: map<int, Doctor>, appts: map<int, Appointment>): (r: Listing)
    ensures r.Failure? <==> patientId.None? || name.None?
    ensures r.Failure? ==> r.code == 400
    ensures r.Listed? ==>
      (forall k :: k in r.ids <==> (k in appts && appts[k].patientId == patientId
        && DoctorNameMatches(appts[k], doctors, Trim(name.value))))
      && Distinct(r.ids) && SortedBy(r.ids, ByTime(appts))
  {
    if patientId.None? || name.None? then Failure(400)
    else Listed(FilterByDoctorNameAndPatientId(appts, doctors, Trim(name.value), patientId.value))
  }

  /** `filterByDoctorAndCondition`: 400 for a condition that does not map or a
      missing name; otherwise the name filter narrowed to that status. */
  function FilterByDoctorAndCondition(condition: Option<string>, name: Option<string>, patientId: int,
    doctors: map<int, Doctor>, appts: map<int, Appointment>): (r: Listing)
    ensures r.Failure? <==> MapConditionToStatus(condition).None? || name.None?
    ensures r.Failure? ==> r.code == 400
    ensures r.Listed? ==> var status := MapConditionToStatus(condition).value;
      (forall k :: k in r.ids <==> (k in appts && appts[k].patientId == Some(patientId)
        && appts[k].status == status && DoctorNameMatches(appts[k], doctors, Trim(name.value))))
      && Distinct(r.ids) && SortedBy(r.ids, ByTime(appts))
  {
    match MapConditionToStatus(condition)
    case None => Failure(400)
    case Some(status) =>
      if name.None? then Failure(400)
      else Listed(FilterByDoctorNameAndPatientIdAndStatus(appts, doctors, Trim(name.value), patientId, status))
  }

  /** A status filter only removes appointments from the name filter's answer. */
  lemma ConditionNarrowsDoctorFilter(condition: Option<string>, name: string, patientId: int,
    doctors: map<int, Doctor>, appts: map<int, Appointment>)
    requires MapConditionToStatus(condition).Some?
    ensures forall k :: (k in FilterByDoctorAndCondition(condition, Some(name), patientId, doctors, appts).ids
      ==> k in FilterByDoctor(Some(name), Some(patientId), doctors, appts).ids)
  {
  }

  /** The answer to `getPatientDetails`. */
  datatype Details = DetailsFailure(code: int) | PatientDetails(id: int, patient: Patient)

  /** `getPatientDetails`: 400 for a missing or blank token; 401 when it
      yields no identifier or a blank one; 404 when no patient has that
      email; 500 exactly when several do; otherwise that patient. */
  function GetPatientDetails(parse: string -> Option<string>, token: Option<string>,
    patients: map<int, Patient>): (r: Details)
    ensures token.None? || IsBlank(token.value) ==> r == DetailsFailure(400)
    ensures token.Some? && !IsBlank(token.value) ==>
      var email := ExtractIdentifier(parse, token);
      (email.None? || IsBlank(email.value) ==> r == DetailsFailure(401))
      && (email.Some? && !IsBlank(email.value) ==>
        (forall k :: k in patients ==> patients[k].email != email.value) ==> r == DetailsFailure(404))
    ensures r.PatientDetails? ==> (r.id in patients && r.patient == patients[r.id]
      && Some(r.patient.email) == ExtractIdentifier(parse, token)
      && UniquePatient(patients, r.patient.email))
    ensures (token.Some? && !IsBlank(token.value) && ExtractIdentifier(parse, token).Some?
      && !IsBlank(ExtractIdentifier(parse, token).value)) ==>
      var email := ExtractIdentifier(parse, token).value;
      (UniquePatient(patients, email) ==> r.PatientDetails?)
      && (r == DetailsFailure(500) <==> SharedEmail(patients, email))
  {
    if token.None? || IsBlank(token.value) then DetailsFailure(400)
    else
      var email := ExtractIdentifier(parse, token);
      if email.None? || IsBlank(email.value) then DetailsFailure(401)
      else
        DetailsFor(patients, email.value)
  }

  /** The lookup step of `getPatientDetails` for a non-blank email. */
  function DetailsFor(patients: map<int, Patient>, email: string): (r: Details)
    ensures (forall k :: k in patients ==> patients[k].email != email) ==> r == DetailsFailure(404)
    ensures r.PatientDetails? ==> (r.id in patients && r.patient == patients[r.id]
      && r.patient.email == email && UniquePatient(patients, email))
    ensures UniquePatient(patients, email) ==> r.PatientDetails?
    ensures r == DetailsFailure(500) <==> SharedEmail(patients, email)
  {
    match FindPatientByEmail(patients, Some(email))
    case NotFound => DetailsFailure(404)
    case Ambiguous => DetailsFailure(500)
    case Found(k) => PatientDetails(k, patients[k])
  }

  /** Two different patients have the email. */
  predicate SharedEmail(patients: map<int, Patient>, email: string) {
    exists j, k :: j in patients && k in patients && j != k && patients[j].email == email && patients[k].email == email
  }

  /** The patient service over the patient table it is given. */
  class PatientService {
    const patients: Table<Patient>

    constructor (patients: Table<Patient>)
      ensures this.patients == patients
    {
      this.patients := patients;
    }

    /** `createPatient`: 0 and nothing stored for no patient; otherwise the
        patient is saved and 1. */
    method CreatePatient(id: Option<int>, patient: Option<Patient>) returns (code: int)
      requires patients.Valid()
      modifies patients
      ensures patients.Valid()
      ensures code == 1 <==> patient.Some?
      ensures code != 1 ==> code == 0 && patients.rows == old(patients.rows)
      ensures code == 1 && id.Some? && id.value in old(patients.rows) ==>
        patients.rows == old(patients.rows)[id.value := patient.value]
      ensures code == 1 && !(id.Some? && id.value in old(patients.rows)) ==>
        exists k :: k !in old(patients.rows) && patients.rows == old(patients.rows)[k := patient.value]
    {
      if patient.None? {
        return 0;
      }
      var saved := patients.Save(id, patient.value);
      code := 1;
    }
  }
}

=== FILE: prescription_service.dfy ===
/**
 * PrescriptionService over the prescription collection: at most one
 * prescription per appointment is ever saved.
 */
module Prescriptions {
  import opened Wrappers
  import opened Tables

  /** A prescription document; the appointment reference may be missing
      from a request. */
  datatype Prescription = Prescription(
    patientName: string,
    appointmentId: Option<int>,
    medication: string,
    dosage: string,
    doctorNotes: string)

  /** No two documents name the same appointment. */
  predicate AtMostOnePerAppointment(docs: map<int, Prescription>) {
    forall j, k :: j in docs && k in docs && j != k && docs[j].appointmentId.Some?
      ==> docs[j].appointmentId != docs[k].appointmentId
  }

  /** `findByAppointmentId`, in storage order. */
  function FindByAppointmentId(docs: map<int, Prescription>, appointmentId: int): (r: seq<int>)
    ensures forall k :: k in r <==> k in docs && docs[k].appointmentId == Some(appointmentId)
    ensures StrictlyIncreasing(r)
  {
    Select(docs, (p: Prescription) => p.appointmentId == Some(appointmentId))
  }

  /** Under the invariant the lookup of an appointment finds at most one id. */
  lemma AtMostOneFound(docs: map<int, Prescription>, appointmentId: int)
    requires AtMostOnePerAppointment(docs)
    ensures var r := FindByAppointmentId(docs, appointmentId);
      forall j, k :: j in r && k in r ==> j == k
  {
  }

  /** Writing a prescription for an appointment no stored prescription names
      keeps at most one per appointment. */
  lemma WriteKeepsAtMostOne(docs: map<int, Prescription>, id: int, p: Prescription)
    requires AtMostOnePerAppointment(docs)
    requires forall k :: k in docs ==> docs[k].appointmentId != p.appointmentId
    ensures AtMostOnePerAppointment(docs[id := p])
  {
  }

  /** The answer to `getPrescription`. */
  datatype PrescriptionReply = PrescriptionFailure(code: int) | PrescriptionsFound(ids: seq<int>)

  /** `getPrescription`: 400 without an appointment id, 404 when the
      appointment has no prescription, otherwise all of its prescriptions. */
  function GetPrescription(docs: map<int, Prescription>, appointmentId: Option<int>): (r: PrescriptionReply)
    ensures appointmentId.None? ==> r == PrescriptionFailure(400)
    ensures appointmentId.Some? ==>
      (r == PrescriptionFailure(404) <==> forall k :: k in docs ==> docs[k].appointmentId != appointmentId)
    ensures r.PrescriptionsFound? ==> (appointmentId.Some? && r.ids != []
      && forall k :: k in r.ids <==> k in docs && docs[k].appointmentId == appointmentId)
    ensures appointmentId.Some? ==>
      (r.PrescriptionsFound? <==> exists k :: k in docs && docs[k].appointmentId == appointmentId)
  {
    if appointmentId.None? then PrescriptionFailure(400)
    else
      var found := FindByAppointmentId(docs, appointmentId.value);
      if found == [] then PrescriptionFailure(404)
      else
        assert found[0] in found;
        PrescriptionsFound(found)
  }

  /** The prescription service over the collection it is given. */
  class PrescriptionService {
    const prescriptions: Table<Prescription>

    constructor (prescriptions: Table<Prescription>)
      ensures this.prescriptions == prescriptions
    {
      this.prescriptions := prescriptions;
    }

    /** `savePrescription`: 400 for a missing payload or appointment id, 400
        when the appointment already has a prescription, otherwise saved and
        201. Only 201 changes the collection, and it keeps at most one
        prescription per appointment. */
    method SavePrescription(id: Option<int>, prescription: Option<Prescription>) returns (code: int)
      requires prescriptions.Valid()
      requires AtMostOnePerAppointment(prescriptions.rows)
      modifies prescriptions
      ensures prescriptions.Valid()
      ensures AtMostOnePerAppointment(prescriptions.rows)
      ensures prescription.None? || prescription.value.appointmentId.None? ==> code == 400
      ensures code == 201 <==> (prescription.Some? && prescription.value.appointmentId.Some?
        && forall k :: k in old(prescriptions.rows) ==>
          old(prescriptions.rows)[k].appointmentId != prescription.value.appointmentId)
      ensures code != 201 ==> code == 400 && prescriptions.rows == old(prescriptions.rows)
      ensures code == 201 ==> exists k :: k in prescriptions.rows && prescriptions.rows == old(prescriptions.rows)[k := prescription.value]
    {
      if prescription.None? || prescription.value.appointmentId.None? {
        return 400;
      }
      var p := prescription.value;
      var existing := FindByAppointmentId(prescriptions.rows, p.appointmentId.value);
      if existing != [] {
        assert existing[0] in existing;
        return 400;
      }
      WriteKeepsAtMostOne(prescriptions.rows, if id.Some? then id.value else prescriptions.nextId, p);
      var saved := prescriptions.Save(id, p);
      assert saved in prescriptions.rows;
      code := 201;
    }
  }
}

=== FILE: service.dfy ===
/**
 * The central `Service`: token and login checks, the pre-booking slot check,
 * the duplicate-patient check, and the dispatch of the doctor and patient
 * searches to the right query by which arguments carry text. Its
 * `normalizeHHmm` is the same function as `normalizeSlot`, branch for
 * branch, so `SlotTime.NormalizeSlot` stands for both.
 */
module CentralService {
  import opened Wrappers
  import opened JavaText
  import opened Tables
  import opened Sorting
  import opened Streams
  import opened SlotTime
  import opened Models
  import opened AppointmentRepo
  import opened Accounts
  import opened Tokens
  import opened DoctorServices
  import opened PatientServices

  /** `validateToken` (Service): 200 when the token names an account of the
      role, 401 otherwise; TokenService catches everything, so the 500 branch
      is never taken. */
  function TokenStatus(parse: string -> Option<string>, token: Option<string>, user: string,
    admins: map<int, Admin>, doctors: map<int, Doctor>, patients: map<int, Patient>): (code: int)
    ensures code == 200 || code == 401
    ensures code == 200 <==> (ExtractIdentifier(parse, token).Some?
      && IsAccountOf(ToLower(user), ExtractIdentifier(parse, token).value, admins, doctors, patients))
  {
    if ValidateToken(parse, token, Some(user), admins, doctors, patients) then 200 else 401
  }

  /** `validateAdmin`: 400 for missing credentials; 401 when no admin has the
      username or its password differs; a token for the username otherwise.
      Several admins with the username make the lookup throw, which is caught
      as 500. */
  function ValidateAdmin(admins: map<int, Admin>, received: Option<Login>, nowMillis: int): (r: LoginReply)
    ensures received.None? || received.value.identifier.None? || received.value.password.None? ==> r == Rejected(400)
    ensures r.Issued? ==> received.Some? && exists k :: (k in admins && Some(admins[k].username) == received.value.identifier
      && Some(admins[k].password) == received.value.password
      && r == Issued(GenerateToken(admins[k].username, nowMillis), "ADMIN", admins[k].username))
    ensures received.Some? && received.value.identifier.Some? && received.value.password.Some? ==>
      (r == Rejected(401) <==> ((forall k :: k in admins ==> Some(admins[k].username) != received.value.identifier)
        || (UniqueAdmin(admins, received.value.identifier.value)
          && exists k :: (k in admins && Some(admins[k].username) == received.value.identifier
            && Some(admins[k].password) != received.value.password))))
    ensures r == Rejected(500) <==> (received.Some? && received.value.identifier.Some? && received.value.password.Some?
      && exists j, k :: (j in admins && k in admins && j != k
        && Some(admins[j].username) == received.value.identifier && Some(admins[k].username) == received.value.identifier))
    ensures (received.Some? && received.value.identifier.Some? && received.value.password.Some?
      && UniqueAdmin(admins, received.value.identifier.value)) ==>
      forall k :: (k in admins && Some(admins[k].username) == received.value.identifier
        && Some(admins[k].password) == received.value.password) ==>
        r == Issued(GenerateToken(admins[k].username, nowMillis), "ADMIN", admins[k].username)
  {
    if received.None? || received.value.identifier.None? || received.value.password.None? then Rejected(400)
    else
      match FindAdminByUsername(admins, received.value.identifier)
      case Ambiguous => Rejected(500)
      case NotFound => Rejected(401)
      case Found(k) =>
        if Some(admins[k].password) != received.value.password then Rejected(401)
        else Issued(GenerateToken(admins[k].username, nowMillis), "ADMIN", admins[k].username)
  }

  /** `validatePatientLogin`: as for admins, by email, with the patient's name
      sent back beside the token. */
  function ValidatePatientLogin(patients: map<int, Patient>, login: Option<Login>, nowMillis: int): (r: LoginReply)
    ensures login.None? || login.value.identifier.None? || login.value.password.None? ==> r == Rejected(400)
    ensures r.Issued? ==> login.Some? && exists k :: (k in patients && Some(patients[k].email) == login.value.identifier
      && Some(patients[k].password) == login.value.password
      && r == Issued(GenerateToken(patients[k].email, nowMillis), "PATIENT", patients[k].name))
    ensures login.Some? && login.value.identifier.Some? && login.value.password.Some? ==>
      (r == Rejected(401) <==> ((forall k :: k in patients ==> Some(patients[k].email) != login.value.identifier)
        || (UniquePatient(patients, login.value.identifier.value)
          && exists k :: (k in patients && Some(patients[k].email) == login.value.identifier
            && Some(patients[k].password) != login.value.password))))
    ensures r == Rejected(500) <==> (login.Some? && login.value.identifier.Some? && login.value.password.Some?
      && exists j, k :: (j in patients && k in patients && j != k
        && Some(patients[j].email) == login.value.identifier && Some(patients[k].email) == login.value.identifier))
    ensures (login.Some? && login.value.identifier.Some? && login.value.password.Some?
      && UniquePatient(patients, login.value.identifier.value)) ==>
      forall k :: (k in patients && Some(patients[k].email) == login.value.identifier
        && Some(patients[k].password) == login.value.password) ==>
        r == Issued(GenerateToken(patients[k].email, nowMillis), "PATIENT", patients[k].name)
  {
    if login.None? || login.value.identifier.None? || login.value.password.None? then Rejected(400)
    else
      match FindPatientByEmail(patients, login.value.identifier)
      case Ambiguous => Rejected(500)
      case NotFound => Rejected(401)
      case Found(k) =>
        if Some(patients[k].password) != login.value.password then Rejected(401)
        else Issued(GenerateToken(patients[k].email, nowMillis), "PATIENT", patients[k].name)
  }

  /** A search argument counts when it is present and not blank. */
  predicate HasText(arg: Option<string>) {
    arg.Some? && !IsBlank(arg.value)
  }

  /** What `filterDoctor` asks of one doctor, stated argument by argument: the
      trimmed name as a substring (ignoring case only when a specialty is
      given too, as the queries it dispatches to do), the trimmed specialty
      equal ignoring case, and a slot in the trimmed half of the day. */
  predicate MatchesDoctorSearch(d: Doctor, name: Option<string>, specialty: Option<string>, time: Option<string>) {
    (HasText(name) ==>
      if HasText(specialty) then ContainsIgnoreCase(d.name, Trim(name.value)) else Contains(d.name, Trim(name.value)))
    && (HasText(specialty) ==> EqualsIgnoreCase(d.specialty, Trim(specialty.value)))
    && (HasText(time) ==> InHalf(d, Some(Trim(time.value))))
  }

  /** `filterDoctor`: the three-way query when all three arguments carry
      text, then the pairs, then the single ones, then every doctor. Whatever
      the branch, the answer is exactly the doctors matching every argument
      that carries text. */
  function FilterDoctor(doctors: map<int, Doctor>, name: Option<string>, specialty: Option<string>, time: Option<string>): (r: seq<int>)
    ensures forall k :: k in r <==> k in doctors && MatchesDoctorSearch(doctors[k], name, specialty, time)
  {
    var hasName, hasSpec, hasTime := HasText(name), HasText(specialty), HasText(time);
    var n := if hasName then Some(Trim(name.value)) else None;
    var s := if hasSpec then Some(Trim(specialty.value)) else None;
    var t := if hasTime then Some(Trim(time.value)) else None;
    if hasName && hasSpec && hasTime then FilterDoctorsByNameSpecialtyAndTime(doctors, n, s, t)
    else if hasName && hasSpec then FilterDoctorByNameAndSpecialty(doctors, n, s)
    else if hasName && hasTime then FilterDoctorByNameAndTime(doctors, n, t)
    else if hasSpec && hasTime then FilterDoctorByTimeAndSpecialty(doctors, s, t)
    else if hasName then FindDoctorByName(doctors, n)
    else if hasSpec then FilterDoctorBySpecialty(doctors, s)
    else if hasTime then FilterDoctorsByTime(doctors, t)
    else GetDoctors(doctors)
  }

  /** With no argument carrying text the search lists every doctor. */
  lemma NoFiltersListsEveryone(doctors: map<int, Doctor>, name: Option<string>, specialty: Option<string>, time: Option<string>)
    requires !HasText(name) && !HasText(specialty) && !HasText(time)
    ensures FilterDoctor(doctors, name, specialty, time) == GetDoctors(doctors)
  {
  }

  /** The slot the appointment asks for is offered by one of the doctor's
      template slots. */
  predicate Offers(d: Doctor, hhmm: string) {
    exists s :: s in d.availableTimes && NormalizeSlot(Some(s)) == hhmm
  }

  /** `validateAppointment`: 0 when the appointment, its doctor or its time
      is missing; -1 for an unknown doctor; otherwise 1 exactly when some slot
      of the doctor's availability that day normalises to the appointment's
      "HH:mm". */
  function ValidateAppointment(doctors: map<int, Doctor>, appts: map<int, Appointment>,
    appointment: Option<Appointment>): (code: int)
    ensures code == -1 || code == 0 || code == 1
    ensures appointment.None? || appointment.value.doctorId.None? || appointment.value.time.None? ==> code == 0
    ensures code == -1 <==> (appointment.Some? && appointment.value.doctorId.Some? && appointment.value.time.Some?
      && appointment.value.doctorId.value !in doctors)
    ensures code == 1 <==> (appointment.Some? && appointment.value.doctorId.Some? && appointment.value.time.Some?
      && appointment.value.doctorId.value in doctors
      && exists s :: (s in GetDoctorAvailability(doctors, appts, appointment.value.doctorId,
          Some(appointment.value.time.value / NANOS_PER_DAY))
        && NormalizeSlot(Some(s)) == FormatHHmm(appointment.value.time.value)))
  {
    if appointment.None? || appointment.value.doctorId.None? || appointment.value.time.None? then 0
    else if appointment.value.doctorId.value !in doctors then -1
    else
      var t := appointment.value.time.value;
      var free := GetDoctorAvailability(doctors, appts, appointment.value.doctorId, Some(t / NANOS_PER_DAY));
      var target := FormatHHmm(t);
      var matching := Filter(free, (s: string) => NormalizeSlot(Some(s)) == target);
      if matching != [] then
        assert matching[0] in matching;
        1
      else 0
  }

  /** The slot check accepts exactly when the doctor's template offers the
      requested "HH:mm" and no appointment of that doctor that day starts at
      that "HH:mm". An appointment starting at another minute, even inside
      the requested hour, does not stop it. */
  lemma AcceptedIffOfferedAndUnbooked(doctors: map<int, Doctor>, appts: map<int, Appointment>, doctorId: int, t: int, a: Appointment)
    requires doctorId in doctors
    requires a.doctorId == Some(doctorId) && a.time == Some(t)
    ensures ValidateAppointment(doctors, appts, Some(a)) == 1 <==>
      (Offers(doctors[doctorId], FormatHHmm(t)) && !BookedOn(appts, doctorId, t / NANOS_PER_DAY, FormatHHmm(t)))
  {
    var day := t / NANOS_PER_DAY;
    var target := FormatHHmm(t);
    var free := GetDoctorAvailability(doctors, appts, Some(doctorId), Some(day));
    if ValidateAppointment(doctors, appts, Some(a)) == 1 {
      var s :| s in free && NormalizeSlot(Some(s)) == target;
      AvailabilityIsUnbookedTemplate(doctors, appts, doctorId, day, s);
    } else if Offers(doctors[doctorId], target) && !BookedOn(appts, doctorId, day, target) {
      var s :| s in doctors[doctorId].availableTimes && NormalizeSlot(Some(s)) == target;
      AvailabilityIsUnbookedTemplate(doctors, appts, doctorId, day, s);
      assert false;
    }
  }

  /** `validatePatient`: false for no patient; otherwise true exactly when no
      patient has the email or the phone. Several matches make the lookup
      throw, and nothing catches it (None). */
  function ValidatePatient(patients: map<int, Patient>, patient: Option<Patient>): (r: Option<bool>)
    ensures patient.None? ==> r == Some(false)
    ensures r == Some(true) <==> (patient.Some? && forall k :: k in patients ==>
      patients[k].email != patient.value.email && patients[k].phone != patient.value.phone)
    ensures r.None? <==> (patient.Some? && exists j, k :: (j in patients && k in patients && j != k
      && (patients[j].email == patient.value.email || patients[j].phone == patient.value.phone)
      && (patients[k].email == patient.value.email || patients[k].phone == patient.value.phone)))
  {
    if patient.None? then Some(false)
    else
      match FindPatientByEmailOrPhone(patients, Some(patient.value.email), Some(patient.value.phone))
      case Ambiguous => None
      case NotFound => Some(true)
      case Found(_) => Some(false)
  }

  lemma TrimTwice(s: string)
    ensures Trim(Trim(s)) == Trim(s)
    ensures MapConditionToStatus(Some(Trim(s))) == MapConditionToStatus(Some(s))
  {
    TrimOfTrimmedForm(Trim(s));
  }

  /** The patient a token speaks for, once the token and its identifier are
      known to carry text. */
  function Requester(parse: string -> Option<string>, token: Option<string>, patients: map<int, Patient>): (r: Lookup)
    ensures r.Found? ==> r.id in patients && ExtractIdentifier(parse, token) == Some(patients[r.id].email)
    ensures r.NotFound? <==> forall k :: k in patients ==> ExtractIdentifier(parse, token) != Some(patients[k].email)
    ensures r.Found? ==> forall k :: k in patients && ExtractIdentifier(parse, token) == Some(patients[k].email) ==> k == r.id
    ensures r.Ambiguous? <==> exists j, k :: (j in patients && k in patients && j != k
      && ExtractIdentifier(parse, token) == Some(patients[j].email)
      && ExtractIdentifier(parse, token) == Some(patients[k].email))
  {
    FindPatientByEmail(patients, ExtractIdentifier(parse, token))
  }

  /** `filterPatient`: 400 for a missing or blank token, 401 when it yields
      no identifier or a blank one, 404 when no patient has that email and
      500 when several do, all before any appointment query; then the
      condition-and-doctor, condition, doctor or plain listing of that
      patient's appointments, by which of condition and name carry text. */
  function FilterPatient(parse: string -> Option<string>, condition: Option<string>, name: Option<string>,
    token: Option<string>, patients: map<int, Patient>, doctors: map<int, Doctor>, appts: map<int, Appointment>): (r: Listing)
    ensures !HasText(token) ==> r == Failure(400)
    ensures HasText(token) && !HasText(ExtractIdentifier(parse, token)) ==> r == Failure(401)
    ensures HasText(token) && HasText(ExtractIdentifier(parse, token)) ==>
      (Requester(parse, token, patients).NotFound? ==> r == Failure(404))
      && (Requester(parse, token, patients).Ambiguous? ==> r == Failure(500))
    ensures r.Listed? ==> (HasText(token) && Requester(parse, token, patients).Found?
      && var p := Requester(parse, token, patients).id;
        (forall k :: k in r.ids ==> k in appts && appts[k].patientId == Some(p))
        && Distinct(r.ids) && SortedBy(r.ids, ByTime(appts))
        && (!HasText(condition) && !HasText(name) ==> forall k :: k in r.ids <==> k in appts && appts[k].patientId == Some(p))
        && (HasText(condition) ==> forall k :: k in r.ids ==> Some(appts[k].status) == MapConditionToStatus(condition))
        && (HasText(name) ==> forall k :: k in r.ids ==> DoctorNameMatches(appts[k], doctors, Trim(name.value))))
  {
    if !HasText(token) then Failure(400)
    else
      var email := ExtractIdentifier(parse, token);
      if !HasText(email) then Failure(401)
      else
        match Requester(parse, token, patients)
        case NotFound => Failure(404)
        case Ambiguous => Failure(500)
        case Found(p) =>
          var hasCond, hasName := HasText(condition), HasText(name);
          if hasCond && hasName then
            TrimTwice(condition.value);
            TrimTwice(name.value);
            FilterByDoctorAndCondition(Some(Trim(condition.value)), Some(Trim(name.value)), p, doctors, appts)
          else if hasCond then
            TrimTwice(condition.value);
            FilterByCondition(Some(Trim(condition.value)), Some(p), appts)
          else if hasName then
            TrimTwice(name.value);
            FilterByDoctor(Some(Trim(name.value)), Some(p), doctors, appts)
          else GetPatientAppointment(parse, Some(p), token, patients, appts)
  }
}

=== FILE: slot_time.dfy ===
/**
 * The slot-time normaliser of DoctorService: `normalizeSlot`, `isAM` and
 * `compareHHmm`, and the stable sort the availability query applies with
 * `compareHHmm`. A slot is free text configured on a doctor ("09:00", "9:00",
 * "9:00 PM"); its canonical form is the zero-padded 24-hour "HH:mm".
 */
module SlotTime {
  import opened Wrappers
  import opened JavaText
  import opened Sorting

  predicate IsDigit(c: char) {
    '0' <= c <= '9'
  }

  function DigitValue(c: char): (d: int)
    requires IsDigit(c)
    ensures 0 <= d <= 9
  {
    c as int - '0' as int
  }

  function DigitChar(d: int): (c: char)
    requires 0 <= d <= 9
    ensures IsDigit(c) && DigitValue(c) == d
  {
    (d + '0' as int) as char
  }

  /** The regex `\d{2}:\d{2}` (Java's `\d` is ASCII only). */
  predicate IsHHmm(s: string) {
    |s| == 5 && IsDigit(s[0]) && IsDigit(s[1]) && s[2] == ':' && IsDigit(s[3]) && IsDigit(s[4])
  }

  /** The regex `\d{1}:\d{2}`. */
  predicate IsHmm(s: string) {
    |s| == 4 && IsDigit(s[0]) && s[1] == ':' && IsDigit(s[2]) && IsDigit(s[3])
  }

  /** Java's regex class `\s`. */
  predicate IsRegexSpace(c: char) {
    c == ' ' || c == '\t' || c == '\n' || c == '\U{0B}' || c == '\U{0C}' || c == '\r'
  }

  /** `\d{1,2}:\d{2}`. */
  predicate IsClock(c: string) {
    IsHmm(c) || IsHHmm(c)
  }

  function HourOf(s: string): int
    requires IsHHmm(s)
  {
    10 * DigitValue(s[0]) + DigitValue(s[1])
  }

  function MinuteOf(s: string): int
    requires IsHHmm(s)
  {
    10 * DigitValue(s[3]) + DigitValue(s[4])
  }

  /** The hour of a `\d{1,2}:\d{2}` clock, as `Integer.parseInt` reads it. */
  function ClockHour(c: string): (h: int)
    requires IsClock(c)
    ensures 0 <= h < 100
  {
    if IsHmm(c) then DigitValue(c[0]) else 10 * DigitValue(c[0]) + DigitValue(c[1])
  }

  function ClockMinute(c: string): (m: int)
    requires IsClock(c)
    ensures 0 <= m < 100
  {
    10 * DigitValue(c[|c| - 2]) + DigitValue(c[|c| - 1])
  }

  /** The text before the two-letter meridiem, without the optional `\s`. */
  function ClockPart(s: string): string
    requires |s| >= 2
  {
    var body := s[..|s| - 2];
    if |body| > 0 && IsRegexSpace(body[|body| - 1]) then body[..|body| - 1] else body
  }

  predicate HasMeridiemSuffix(s: string) {
    |s| >= 2 && (s[|s| - 2..] == "AM" || s[|s| - 2..] == "PM")
  }

  /** The regex `\d{1,2}:\d{2}\s?(AM|PM)`. */
  predicate IsMeridiemForm(s: string) {
    HasMeridiemSuffix(s) && IsClock(ClockPart(s))
  }

  /** `s.endsWith("PM")`. */
  predicate IsPM(s: string) {
    |s| >= 2 && s[|s| - 2..] == "PM"
  }

  /** `String.format("%02d", n)` for a value below 100. */
  function TwoDigits(n: int): (r: string)
    requires 0 <= n < 100
    ensures |r| == 2 && IsDigit(r[0]) && IsDigit(r[1])
    ensures 10 * DigitValue(r[0]) + DigitValue(r[1]) == n
  {
    [DigitChar(n / 10), DigitChar(n % 10)]
  }

  /** `String.format("%02d:%02d", h, m)`: always a two-digit "HH:mm". */
  function FormatClock(h: int, m: int): (r: string)
    requires 0 <= h < 100 && 0 <= m < 100
    ensures IsHHmm(r) && HourOf(r) == h && MinuteOf(r) == m
  {
    TwoDigits(h) + ":" + TwoDigits(m)
  }

  /** Lines 262-263: PM adds 12 below hour 12, and 12 AM is hour 0. */
  function To24Hour(h: int, pm: bool): int {
    if pm && h < 12 then h + 12
    else if !pm && h == 12 then 0
    else h
  }

  /** The `h:mm[ ]AM|PM` branch, reading the hour and minute off the clock part
      whether or not a space precedes the meridiem. No range check is made. */
  function ParseMeridiem(s: string): (r: string)
    requires IsMeridiemForm(s)
    ensures IsHHmm(r)
    ensures MinuteOf(r) == ClockMinute(ClockPart(s))
    ensures IsPM(s) && ClockHour(ClockPart(s)) < 12 ==> HourOf(r) == ClockHour(ClockPart(s)) + 12
    ensures !IsPM(s) && ClockHour(ClockPart(s)) == 12 ==> HourOf(r) == 0
    ensures !(IsPM(s) && ClockHour(ClockPart(s)) < 12) && !(!IsPM(s) && ClockHour(ClockPart(s)) == 12) ==>
      HourOf(r) == ClockHour(ClockPart(s))
  {
    var c := ClockPart(s);
    FormatClock(To24Hour(ClockHour(c), IsPM(s)), ClockMinute(c))
  }

  // ---------------------------------------------------------------------
  // The branch as the source writes it: `s.split("\\s+")[0].split(":")` and
  // `Integer.parseInt` of both halves. Without a space before the meridiem the
  // minute half still carries "AM"/"PM" and `parseInt` throws.

  function BeforeFirstSpace(s: string): (r: string)
    ensures |r| <= |s|
  {
    if s == [] || IsRegexSpace(s[0]) then [] else [s[0]] + BeforeFirstSpace(s[1..])
  }

  function BeforeColon(s: string): string {
    if s == [] || s[0] == ':' then [] else [s[0]] + BeforeColon(s[1..])
  }

  function AfterColon(s: string): string {
    if s == [] then [] else if s[0] == ':' then s[1..] else AfterColon(s[1..])
  }

  predicate AllDigits(t: string) {
    forall i :: 0 <= i < |t| ==> IsDigit(t[i])
  }

  function DecimalValue(t: string): (v: int)
    requires AllDigits(t)
    ensures v >= 0
  {
    if t == [] then 0 else 10 * DecimalValue(t[..|t| - 1]) + DigitValue(t[|t| - 1])
  }

  /** `Integer.parseInt` on the unsigned text that reaches it; `None` is the
      `NumberFormatException`. */
  function ParseDecimal(t: string): (r: Option<int>)
    ensures r.Some? <==> t != [] && AllDigits(t)
  {
    if t != [] && AllDigits(t) then Some(DecimalValue(t)) else None
  }

  /** DoctorService.java lines 256-264 as written; `None` means the branch
      throws `NumberFormatException`. */
  function ParseMeridiemAsWritten(s: string): Option<string>
    requires IsMeridiemForm(s)
  {
    var hm := BeforeFirstSpace(s);
    match (ParseDecimal(BeforeColon(hm)), ParseDecimal(AfterColon(hm)))
    case (Some(h), Some(m)) =>
      var h24 := To24Hour(h, IsPM(s));
      if 0 <= h24 < 100 && m < 100 then Some(FormatClock(h24, m)) else None
    case _ => None
  }

  predicate SpaceBeforeMeridiem(s: string) {
    |s| >= 3 && IsRegexSpace(s[|s| - 3])
  }

  lemma {:induction false} NoSpaceBeforeColonPrefix(c: string, rest: string)
    requires forall i :: 0 <= i < |c| ==> !IsRegexSpace(c[i])
    ensures BeforeFirstSpace(c + rest) == c + BeforeFirstSpace(rest)
  {
    if c == [] {
      assert c + rest == rest;
    } else {
      assert c + rest == [c[0]] + (c[1..] + rest);
      NoSpaceBeforeColonPrefix(c[1..], rest);
    }
  }

  /** The decomposition of a meridiem form into clock, optional space and suffix. */
  lemma MeridiemShape(s: string)
    requires IsMeridiemForm(s)
    ensures SpaceBeforeMeridiem(s) ==> s == ClockPart(s) + [s[|s| - 3]] + s[|s| - 2..]
    ensures !SpaceBeforeMeridiem(s) ==> s == ClockPart(s) + s[|s| - 2..]
    ensures forall i :: 0 <= i < |ClockPart(s)| ==> !IsRegexSpace(ClockPart(s)[i])
  {
    var body := s[..|s| - 2];
    assert s == body + s[|s| - 2..];
    if |body| > 0 && IsRegexSpace(body[|body| - 1]) {
      assert body == body[..|body| - 1] + [s[|s| - 3]];
    }
    var c := ClockPart(s);
    forall i | 0 <= i < |c| ensures !IsRegexSpace(c[i]) {
      assert IsDigit(c[i]) || c[i] == ':';
    }
  }

  lemma ClockSplitsAtColon(c: string, rest: string)
    requires IsClock(c)
    ensures BeforeColon(c + rest) == c[..|c| - 3]
    ensures AfterColon(c + rest) == c[|c| - 2..] + rest
  {
    if IsHmm(c) {
      assert (c + rest)[1..] == c[1..] + rest;
      assert (c + rest)[1..][1..] == c[2..] + rest;
    } else {
      assert (c + rest)[1..] == c[1..] + rest;
      assert (c + rest)[1..][1..] == c[2..] + rest;
      assert (c + rest)[1..][1..][1..] == c[3..] + rest;
    }
  }

  lemma TwoDigitValue(t: string)
    requires |t| == 2 && AllDigits(t)
    ensures DecimalValue(t) == 10 * DigitValue(t[0]) + DigitValue(t[1])
  {
    var p := t[..1];
    assert p[..0] == [] && p[0] == t[0];
    assert DecimalValue(p) == DigitValue(t[0]);
    assert t[..|t| - 1] == p;
  }

  /** With a space before the meridiem, the source's parsing agrees with the
      corrected branch. */
  lemma AsWrittenWithSpace(s: string)
    requires IsMeridiemForm(s) && SpaceBeforeMeridiem(s)
    ensures ParseMeridiemAsWritten(s) == Some(ParseMeridiem(s))
  {
    var c := ClockPart(s);
    MeridiemShape(s);
    var tail := [s[|s| - 3]] + s[|s| - 2..];
    NoSpaceBeforeColonPrefix(c, tail);
    assert tail[0] == s[|s| - 3];
    assert BeforeFirstSpace(tail) == [];
    assert s == c + tail;
    assert BeforeFirstSpace(s) == c + [];
    ClockSplitsAtColon(c, []);
    assert c + [] == c;
    var hour, minute := c[..|c| - 3], c[|c| - 2..];
    TwoDigitValue(minute);
    assert ParseDecimal(minute) == Some(ClockMinute(c));
    if IsHmm(c) {
      assert hour == [c[0]];
      assert hour[..0] == [];
      assert DecimalValue(hour) == DigitValue(c[0]);
    } else {
      assert hour == [c[0], c[1]];
      TwoDigitValue(hour);
    }
    assert ParseDecimal(hour) == Some(ClockHour(c));
    assert BeforeColon(BeforeFirstSpace(s)) == hour;
    assert AfterColon(BeforeFirstSpace(s)) == minute;
    var h24 := To24Hour(ClockHour(c), IsPM(s));
    assert 0 <= h24 < 100;
    assert ParseMeridiemAsWritten(s) == Some(FormatClock(h24, ClockMinute(c)));
  }

  /** Without a space before the meridiem, the source's parsing always throws
      although the shape test accepted the text. */
  lemma AsWrittenWithoutSpace(s: string)
    requires IsMeridiemForm(s) && !SpaceBeforeMeridiem(s)
    ensures ParseMeridiemAsWritten(s) == None
  {
    var c := ClockPart(s);
    MeridiemShape(s);
    var suffix := s[|s| - 2..];
    assert BeforeFirstSpace(suffix) == suffix by {
      assert suffix[1..][1..] == [];
    }
    NoSpaceBeforeColonPrefix(c, suffix);
    ClockSplitsAtColon(c, suffix);
    var minutes := AfterColon(BeforeFirstSpace(s));
    assert minutes == c[|c| - 2..] + suffix;
    assert !IsDigit(minutes[|minutes| - 1]);
    assert ParseDecimal(minutes) == None;
  }

  /** The input that shows it: "9:00PM" passes the shape test and throws. */
  lemma NoSpaceMeridiemThrows()
    ensures IsMeridiemForm("9:00PM")
    ensures ParseMeridiemAsWritten("9:00PM") == None
    ensures ParseMeridiem("9:00PM") == "21:00"
  {
    NinePmShape();
    AsWrittenWithoutSpace("9:00PM");
    NinePmCorrected();
  }

  lemma NinePmShape()
    ensures ClockPart("9:00PM") == "9:00" && IsHmm("9:00")
    ensures IsMeridiemForm("9:00PM") && !SpaceBeforeMeridiem("9:00PM") && IsPM("9:00PM")
  {
    assert "9:00PM"[..4] == "9:00";
    assert "9:00PM"[4..] == "PM";
  }

  lemma NinePmCorrected()
    ensures IsMeridiemForm("9:00PM") && ParseMeridiem("9:00PM") == "21:00"
  {
    NinePmShape();
    assert ClockHour("9:00") == 9 && ClockMinute("9:00") == 0;
    assert TwoDigits(21) == "21" && TwoDigits(0) == "00";
  }

  // ---------------------------------------------------------------------

  /** `normalizeSlot` (DoctorService) with the meridiem branch corrected as
      above: null gives "", otherwise the trimmed upper-cased text in canonical
      "HH:mm" when it has one of the three accepted shapes. */
  function NormalizeSlot(raw: Option<string>): (r: string)
    ensures raw.None? ==> r == ""
    ensures raw.Some? && IsHHmm(ToUpper(Trim(raw.value))) ==> r == ToUpper(Trim(raw.value))
    ensures raw.Some? && IsHmm(ToUpper(Trim(raw.value))) ==> r == "0" + ToUpper(Trim(raw.value))
    ensures raw.Some? ==> var s := ToUpper(Trim(raw.value));
      (IsMeridiemForm(s) ==> r == ParseMeridiem(s))
      && (!IsHHmm(s) && !IsHmm(s) && !IsMeridiemForm(s) ==> r == s)
    ensures IsHHmm(r) || (IsTrimmedForm(r) && ToUpper(r) == r && (raw.Some? ==> r == ToUpper(Trim(raw.value))))
  {
    match raw
    case None => ""
    case Some(text) =>
      var s := ToUpper(Trim(text));
      UpperKeepsTrimmedForm(Trim(text));
      UpperIdempotent(Trim(text));
      if IsHHmm(s) then s
      else if IsHmm(s) then
        assert ("0" + s)[1..] == s;
        "0" + s
      else if IsMeridiemForm(s) then ParseMeridiem(s)
      else s
  }

  /** A slot is canonical when it normalises to "HH:mm". */
  predicate IsCanonical(slot: string) {
    IsHHmm(NormalizeSlot(Some(slot)))
  }

  lemma CanonicalIsFixed(s: string)
    requires IsHHmm(s)
    ensures NormalizeSlot(Some(s)) == s
  {
    assert IsTrimmedForm(s);
    TrimOfTrimmedForm(s);
    assert ToUpper(s) == s;
  }

  /** `normalizeSlot` is idempotent: a second pass changes nothing. */
  lemma NormalizeIdempotent(raw: Option<string>)
    ensures NormalizeSlot(Some(NormalizeSlot(raw))) == NormalizeSlot(raw)
  {
    var r := NormalizeSlot(raw);
    if IsHHmm(r) {
      CanonicalIsFixed(r);
    } else if raw.None? {
      assert r == "";
      assert Trim("") == "";
      assert ToUpper("") == "";
    } else {
      TrimOfTrimmedForm(r);
      var s := ToUpper(Trim(raw.value));
      assert r == s;
      assert !IsHHmm(s);
      if IsHmm(s) {
        assert false;
      }
      if IsMeridiemForm(s) {
        assert false;
      }
    }
  }

  /** `isAM`: on "HH:mm" the hour decides; any other text is morning exactly
      when it contains "AM", so text with neither "AM" nor "PM" counts as PM. */
  function IsAM(text: string): (am: bool)
    ensures IsHHmm(text) ==> (am <==> HourOf(text) < 12)
    ensures !IsHHmm(text) ==> (am <==> Contains(text, "AM"))
  {
    if IsHHmm(text) then HourOf(text) < 12
    else if Contains(text, "AM") then true
    else if Contains(text, "PM") then false
    else false
  }

  /** A 12-hour time with hour 1..12 lands in the half of the day its
      meridiem names. */
  lemma MeridiemLandsInItsHalf(s: string)
    requires IsMeridiemForm(s)
    requires 1 <= ClockHour(ClockPart(s)) <= 12
    ensures IsAM(ParseMeridiem(s)) <==> !IsPM(s)
    ensures HourOf(ParseMeridiem(s)) < 24
  {
  }

  /** The numeric reading of "HH:mm" that its string order follows. */
  function ClockKey(s: string): int
    requires IsHHmm(s)
  {
    100 * HourOf(s) + MinuteOf(s)
  }

  lemma CompareToStep(a: string, b: string)
    requires a != [] && b != [] && a[0] == b[0]
    ensures CompareTo(a, b) == CompareTo(a[1..], b[1..])
  {
  }

  /** On "HH:mm" strings, `String.compareTo` is the order of their clock values. */
  lemma {:induction false} CompareClocks(x: string, y: string)
    requires IsHHmm(x) && IsHHmm(y)
    ensures CompareTo(x, y) < 0 <==> ClockKey(x) < ClockKey(y)
    ensures CompareTo(x, y) == 0 <==> ClockKey(x) == ClockKey(y)
  {
    if x[0] != y[0] {
    } else {
      CompareToStep(x, y);
      var x1, y1 := x[1..], y[1..];
      if x1[0] != y1[0] {
      } else {
        CompareToStep(x1, y1);
        var x2, y2 := x1[1..], y1[1..];
        CompareToStep(x2, y2);
        var x3, y3 := x2[1..], y2[1..];
        if x3[0] != y3[0] {
        } else {
          CompareToStep(x3, y3);
          var x4, y4 := x3[1..], y3[1..];
          if x4[0] != y4[0] {
          } else {
            CompareToStep(x4, y4);
            assert x4[1..] == [] && y4[1..] == [];
          }
        }
      }
    }
  }

  /** For valid times of day, the clock value order is chronological order. */
  lemma ClockKeyIsChronological(x: string, y: string)
    requires IsHHmm(x) && IsHHmm(y)
    requires HourOf(x) < 24 && MinuteOf(x) < 60 && HourOf(y) < 24 && MinuteOf(y) < 60
    ensures ClockKey(x) <= ClockKey(y) <==> 60 * HourOf(x) + MinuteOf(x) <= 60 * HourOf(y) + MinuteOf(y)
  {
  }

  /** `compareHHmm`: the normalised strings' order when both are canonical,
      otherwise the raw texts compared ignoring case. */
  function CompareHHmm(a: string, b: string): (r: int)
    ensures IsCanonical(a) && IsCanonical(b) ==>
      (r <= 0 <==> ClockKey(NormalizeSlot(Some(a))) <= ClockKey(NormalizeSlot(Some(b))))
  {
    var na := NormalizeSlot(Some(a));
    var nb := NormalizeSlot(Some(b));
    if IsHHmm(na) && IsHHmm(nb) then
      CompareClocks(na, nb);
      CompareTo(na, nb)
    else CompareToIgnoreCase(a, b)
  }

  predicate AllCanonical(slots: seq<string>) {
    forall y :: y in slots ==> IsCanonical(y)
  }

  /** The sort key of a slot: its clock value when canonical. */
  function SlotKey(slot: string): int {
    if IsCanonical(slot) then ClockKey(NormalizeSlot(Some(slot))) else 0
  }

  /** `compareHHmm(a, b) <= 0` as a test. */
  predicate SlotBefore(a: string, b: string) {
    CompareHHmm(a, b) <= 0
  }

  /** The stable sort `stream().sorted(this::compareHHmm)`: always a
      rearrangement of its input. */
  function SortSlots(s: seq<string>): (r: seq<string>)
    ensures multiset(r) == multiset(s)
    ensures forall y :: y in r <==> y in s
  {
    SortBy(s, SlotBefore)
  }

  /** When every slot is canonical the sort orders them by time of day. */
  lemma SortSlotsSorted(s: seq<string>)
    requires AllCanonical(s)
    ensures SortedBy(SortSlots(s), SlotBefore)
    ensures forall i, j :: 0 <= i < j < |SortSlots(s)| ==> SlotKey(SortSlots(s)[i]) <= SlotKey(SortSlots(s)[j])
  {
    forall x, y | x in s && y in s ensures SlotBefore(x, y) <==> SlotKey(x) <= SlotKey(y) {
      assert IsCanonical(x) && IsCanonical(y);
    }
    SortBySorted(s, SlotBefore);
  }
}

=== FILE: sorting.dfy ===
/**
 * The stable sort behind `stream().sorted(cmp)` and `ORDER BY .. ASC`,
 * written as an insertion sort over a "may come before" test.
 */
module Sorting {

  /** Every element may come before every later one. */
  predicate SortedBy<T>(s: seq<T>, before: (T, T) -> bool) {
    forall i, j :: 0 <= i < j < |s| ==> before(s[i], s[j])
  }

  /** `before` is total and transitive on the members of `s`, as a comparator is. */
  predicate TotalPreorderOn<T(==)>(s: seq<T>, before: (T, T) -> bool) {
    (forall x, y :: x in s && y in s ==> before(x, y) || before(y, x))
    && (forall x, y, z :: x in s && y in s && z in s && before(x, y) && before(y, z) ==> before(x, z))
  }

  /** Insert `x` in front of the first element it may come before. */
  function InsertBy<T(==, !new)>(x: T, s: seq<T>, before: (T, T) -> bool): (r: seq<T>)
    ensures multiset(r) == multiset(s) + multiset{x}
    ensures forall y :: y in r <==> y == x || y in s
  {
    if s == [] then [x]
    else if before(x, s[0]) then [x] + s
    else
      assert s == [s[0]] + s[1..];
      [s[0]] + InsertBy(x, s[1..], before)
  }

  lemma {:induction false} InsertBySorted<T(!new)>(x: T, s: seq<T>, before: (T, T) -> bool)
    requires TotalPreorderOn([x] + s, before)
    requires SortedBy(s, before)
    ensures SortedBy(InsertBy(x, s, before), before)
  {
    if s != [] {
      assert s[0] in [x] + s && x in [x] + s;
      if !before(x, s[0]) {
        var rest := InsertBy(x, s[1..], before);
        assert forall y :: y in [x] + s[1..] ==> y in [x] + s;
        InsertBySorted(x, s[1..], before);
        forall k | 0 <= k < |rest| ensures before(s[0], rest[k]) {
          assert rest[k] in rest;
          if rest[k] != x {
            var j :| 0 <= j < |s[1..]| && s[1..][j] == rest[k];
            assert s[j + 1] == rest[k];
          }
        }
      } else {
        forall k | 0 <= k < |s| ensures before(x, s[k]) {
          if k > 0 {
            assert before(s[0], s[k]);
            assert s[k] in [x] + s;
          }
        }
      }
    }
  }

  /** Insertion sort: each element goes in front of the first later one it may
      come before, so equal elements keep their order. */
  function SortBy<T(==, !new)>(s: seq<T>, before: (T, T) -> bool): (r: seq<T>)
    ensures multiset(r) == multiset(s)
    ensures forall y :: y in r <==> y in s
  {
    if s == [] then []
    else
      assert s == [s[0]] + s[1..];
      InsertBy(s[0], SortBy(s[1..], before), before)
  }

  /** Under a comparator's laws the sort delivers an ordered sequence. */
  lemma {:induction false} SortBySorted<T(!new)>(s: seq<T>, before: (T, T) -> bool)
    requires TotalPreorderOn(s, before)
    ensures SortedBy(SortBy(s, before), before)
  {
    if s != [] {
      assert forall y :: y in s[1..] ==> y in s;
      SortBySorted(s[1..], before);
      var sorted := SortBy(s[1..], before);
      assert forall y :: y in [s[0]] + sorted ==> y in s;
      InsertBySorted(s[0], sorted, before);
    }
  }

  /** An already ordered sequence comes back unchanged. */
  lemma {:induction false} SortByKeepsSorted<T(!new)>(s: seq<T>, before: (T, T) -> bool)
    requires SortedBy(s, before)
    ensures SortBy(s, before) == s
  {
    if s != [] {
      SortByKeepsSorted(s[1..], before);
      assert s == [s[0]] + s[1..];
    }
  }
}

=== FILE: streams.dfy ===
/**
 * `stream().filter(..)` over a list: the kept elements, in their order.
 */
module Streams {

  function Filter<T(==, !new)>(s: seq<T>, keep: T -> bool): (r: seq<T>)
    ensures forall x :: x in r <==> x in s && keep(x)
    ensures forall x :: multiset(r)[x] == if keep(x) then multiset(s)[x] else 0
  {
    if s == [] then []
    else
      assert s == [s[0]] + s[1..];
      if keep(s[0]) then [s[0]] + Filter(s[1..], keep) else Filter(s[1..], keep)
  }

  /** Filtering keeps order: the kept elements of a front part come before
      those of a back part. */
  lemma {:induction false} FilterAppend<T(!new)>(a: seq<T>, b: seq<T>, keep: T -> bool)
    ensures Filter(a + b, keep) == Filter(a, keep) + Filter(b, keep)
  {
    if a == [] {
      assert a + b == b;
    } else {
      assert (a + b)[0] == a[0];
      assert (a + b)[1..] == a[1..] + b;
      FilterAppend(a[1..], b, keep);
    }
  }

  /** A filter that keeps every element returns its input. */
  lemma {:induction false} FilterKeepsAll<T(!new)>(s: seq<T>, keep: T -> bool)
    requires forall x :: x in s ==> keep(x)
    ensures Filter(s, keep) == s
  {
    if s != [] {
      assert s[0] in s;
      assert forall x :: x in s[1..] ==> x in s;
      FilterKeepsAll(s[1..], keep);
      assert s == [s[0]] + s[1..];
    }
  }
}

=== FILE: tables.dfy ===
/**
 * Tables keyed by generated ids, as the JPA repositories keep them: scans in
 * ascending id order and Spring Data's single-result finders.
 */
module Tables {
  import opened Wrappers

  /** The outcome of a Spring Data finder that returns one entity or null: no
      match gives null, one match gives that row, several matches make Spring
      throw `IncorrectResultSizeDataAccessException`. */
  datatype Lookup = NotFound | Found(id: int) | Ambiguous

  predicate StrictlyIncreasing(s: seq<int>) {
    forall i, j :: 0 <= i < j < |s| ==> s[i] < s[j]
  }

  /** Every element occurs once. */
  predicate Distinct<T(==)>(s: seq<T>) {
    forall i, j :: 0 <= i < j < |s| ==> s[i] != s[j]
  }

  lemma NonEmptyHasElement(s: set<int>)
    requires s != {}
    ensures exists k :: k in s
  {
    if forall k :: k !in s {
      assert false;
    }
  }

  /** `m` is at most every member of `s`. */
  predicate IsLeast(m: int, s: set<int>) {
    forall k :: k in s ==> m <= k
  }

  lemma {:induction false} MinExists(s: set<int>)
    requires s != {}
    ensures exists m :: m in s && IsLeast(m, s)
    decreases |s|
  {
    NonEmptyHasElement(s);
    var x :| x in s;
    var rest := s - {x};
    if rest == {} {
      assert s == {x};
      assert IsLeast(x, s);
    } else {
      MinExists(rest);
      var m :| m in rest && IsLeast(m, rest);
      if x < m {
        forall k | k in s ensures x <= k {
          if k != x { assert k in rest; }
        }
        assert IsLeast(x, s);
      } else {
        forall k | k in s ensures m <= k {
          if k != x { assert k in rest; }
        }
        assert m in s && IsLeast(m, s);
      }
    }
  }

  function MinOf(s: set<int>): (m: int)
    requires s != {}
    ensures m in s && forall k :: k in s ==> m <= k
  {
    MinExists(s);
    var m :| m in s && IsLeast(m, s); m
  }

  /** The keys of a table in ascending order: the order of a scan of its
      primary-key index. */
  function KeysAscending(ks: set<int>): (r: seq<int>)
    ensures StrictlyIncreasing(r)
    ensures forall k :: k in r <==> k in ks
    decreases |ks|
  {
    if ks == {} then []
    else
      var m := MinOf(ks);
      [m] + KeysAscending(ks - {m})
  }

  /** The ids of `ks` whose rows satisfy `keep`, in the order of `ks`. */
  function FilterIds<T>(ks: seq<int>, rows: map<int, T>, keep: T -> bool): (r: seq<int>)
    requires forall k :: k in ks ==> k in rows
    ensures forall k :: k in r <==> k in ks && keep(rows[k])
    ensures StrictlyIncreasing(ks) ==> StrictlyIncreasing(r)
  {
    if ks == [] then []
    else
      var first := ks[0];
      assert first in ks;
      assert forall k :: k in ks[1..] ==> k in ks;
      var rest := FilterIds(ks[1..], rows, keep);
      if keep(rows[first]) then
        var r := [first] + rest;
        assert StrictlyIncreasing(ks) ==> StrictlyIncreasing(r) by {
          if StrictlyIncreasing(ks) {
            assert StrictlyIncreasing(ks[1..]);
            assert StrictlyIncreasing(rest);
            forall k | k in rest ensures first < k {
              var j :| 0 <= j < |ks[1..]| && ks[1..][j] == k;
              assert ks[j + 1] == k;
            }
            forall i, j | 0 <= i < j < |r| ensures r[i] < r[j] {
              assert r[j] == rest[j - 1];
              if i > 0 { assert r[i] == rest[i - 1]; } else { assert r[j] in rest; }
            }
          }
        }
        r
      else rest
  }

  /** `SELECT id FROM rows WHERE keep(row)` scanned in id order. */
  function Select<T>(rows: map<int, T>, keep: T -> bool): (r: seq<int>)
    ensures StrictlyIncreasing(r)
    ensures forall k :: k in r <==> k in rows && keep(rows[k])
  {
    FilterIds(KeysAscending(rows.Keys), rows, keep)
  }

  lemma SingletonHasElement(s: set<int>)
    requires |s| == 1
    ensures exists k :: s == {k}
  {
    NonEmptyHasElement(s);
    var k :| k in s;
    assert |s - {k}| == 0;
    assert s == {k};
  }

  /** The single-result finder over the ids of the matching rows. */
  function LookupIn(matches: set<int>): (r: Lookup)
    ensures r.NotFound? <==> matches == {}
    ensures r.Found? <==> |matches| == 1
    ensures r.Found? ==> matches == {r.id}
    ensures r.Ambiguous? <==> |matches| >= 2
  {
    if matches == {} then NotFound
    else if |matches| == 1 then
      SingletonHasElement(matches);
      var k :| matches == {k}; Found(k)
    else Ambiguous
  }

  lemma StrictlyIncreasingIsDistinct(s: seq<int>)
    requires StrictlyIncreasing(s)
    ensures Distinct(s)
  {
  }

  /** A rearrangement of a sequence without repeats has no repeats. */
  lemma {:induction false} PermutationKeepsDistinct<T>(s: seq<T>, t: seq<T>)
    requires multiset(s) == multiset(t)
    requires Distinct(s)
    ensures Distinct(t)
  {
    forall i, j | 0 <= i < j < |t| ensures t[i] != t[j] {
      if t[i] == t[j] {
        var x := t[i];
        assert t == t[..i] + [x] + t[i + 1..j] + [x] + t[j + 1..];
        assert multiset(t)[x] >= 2;
        DistinctCountsOnce(s, x);
        assert false;
      }
    }
  }

  lemma {:induction false} DistinctCountsOnce<T>(s: seq<T>, x: T)
    requires Distinct(s)
    ensures multiset(s)[x] <= 1
  {
    if s != [] {
      assert s == [s[0]] + s[1..];
      DistinctCountsOnce(s[1..], x);
      if s[0] == x {
        assert x !in s[1..];
      }
    }
  }

  /** A set has two or more members exactly when it has two different ones. */
  lemma AtLeastTwo(s: set<int>)
    ensures |s| >= 2 <==> exists j, k :: j in s && k in s && j != k
  {
    if |s| >= 2 {
      NonEmptyHasElement(s);
      var j :| j in s;
      assert |s - {j}| >= 1;
      NonEmptyHasElement(s - {j});
      var k :| k in s - {j};
      assert j in s && k in s && j != k;
    }
    if exists j, k :: j in s && k in s && j != k {
      var j, k :| j in s && k in s && j != k;
      assert {j, k} <= s;
      assert |{j, k}| == 2;
      SubsetSize({j, k}, s);
    }
  }

  lemma SubsetSize(a: set<int>, b: set<int>)
    requires a <= b
    ensures |a| <= |b|
  {
    assert b == a + (b - a);
  }

  /** Past the head of an ascending sequence come exactly its other members. */
  lemma TailMembers(a: seq<int>, k: int)
    requires StrictlyIncreasing(a) && a != []
    ensures k in a[1..] <==> k in a && k != a[0]
  {
    if k in a[1..] {
      var j :| 0 <= j < |a[1..]| && a[1..][j] == k;
      assert a[j + 1] == k && a[0] < k;
    }
    if k in a && k != a[0] {
      var i :| 0 <= i < |a| && a[i] == k;
      assert a[1..][i - 1] == k;
    }
  }

  /** Two ascending sequences with the same members are equal. */
  lemma {:induction false} SameMembersSameAscending(a: seq<int>, b: seq<int>)
    requires StrictlyIncreasing(a) && StrictlyIncreasing(b)
    requires forall k :: k in a <==> k in b
    ensures a == b
  {
    if a != [] { assert a[0] in a; }
    if b != [] { assert b[0] in b; }
    if a != [] && b != [] {
      assert a[0] == b[0] by {
        assert a[0] in b && b[0] in a;
        assert a[0] <= b[0] by { var i :| 0 <= i < |a| && a[i] == b[0]; }
        assert b[0] <= a[0] by { var i :| 0 <= i < |b| && b[i] == a[0]; }
      }
      forall k ensures k in a[1..] <==> k in b[1..] {
        TailMembers(a, k);
        TailMembers(b, k);
      }
      assert StrictlyIncreasing(a[1..]) && StrictlyIncreasing(b[1..]);
      SameMembersSameAscending(a[1..], b[1..]);
      assert a == [a[0]] + a[1..] && b == [b[0]] + b[1..];
    }
  }

  /** A Spring Data finder returning one entity: the row `matches` accepts,
      nothing, or an exception when several rows match. */
  function FindUnique<T>(rows: map<int, T>, matches: T -> bool): (r: Lookup)
    ensures r.Found? ==> r.id in rows && matches(rows[r.id])
    ensures r.Found? ==> forall k :: k in rows && matches(rows[k]) ==> k == r.id
    ensures r.NotFound? <==> forall k :: k in rows ==> !matches(rows[k])
    ensures r.Ambiguous? <==> exists j, k :: j in rows && k in rows && j != k && matches(rows[j]) && matches(rows[k])
  {
    var found := set k | k in rows && matches(rows[k]);
    AtLeastTwo(found);
    assert forall k :: k in rows && matches(rows[k]) <==> k in found;
    LookupIn(found)
  }

  /** Exactly one row satisfies `p`. */
  predicate ExactlyOne<T>(rows: map<int, T>, p: T -> bool) {
    exists k :: k in rows && p(rows[k]) && forall j :: j in rows && p(rows[j]) ==> j == k
  }

  /** The finder yields a row exactly when one row matches. */
  lemma FindUniqueFound<T>(rows: map<int, T>, p: T -> bool)
    ensures FindUnique(rows, p).Found? <==> ExactlyOne(rows, p)
  {
    var r := FindUnique(rows, p);
    if ExactlyOne(rows, p) {
      var k :| k in rows && p(rows[k]) && forall j :: j in rows && p(rows[j]) ==> j == k;
      assert !r.NotFound?;
    }
  }

  /** A JPA table whose ids come from an identity column. */
  class Table<T> {
    var rows: map<int, T>
    var nextId: int

    /** Every stored id was handed out before. */
    ghost predicate Valid()
      reads this
    {
      forall k :: k in rows ==> k < nextId
    }

    constructor ()
      ensures rows == map[] && Valid()
    {
      rows := map[];
      nextId := 1;
    }

    /** `save`: an entity without id, or with an id no row has, is inserted
        under a fresh id; one with a stored id overwrites that row. */
    method Save(id: Option<int>, value: T) returns (saved: int)
      requires Valid()
      modifies this
      ensures Valid()
      ensures rows == old(rows)[saved := value]
      ensures id.Some? && id.value in old(rows) ==> saved == id.value
      ensures !(id.Some? && id.value in old(rows)) ==> saved !in old(rows)
    {
      if id.Some? && id.value in rows {
        saved := id.value;
      } else {
        saved := nextId;
        nextId := nextId + 1;
      }
      rows := rows[saved := value];
    }

    /** `deleteById` / `delete`: removes that row only. */
    method DeleteById(id: int)
      requires Valid()
      modifies this
      ensures Valid()
      ensures rows == old(rows) - {id}
    {
      rows := rows - {id};
    }
  }
}

=== FILE: token_service.dfy ===
/**
 * TokenService: issuing a token for an identifier and checking that a token
 * names an account of a given role. The JWT parser is a parameter: a partial
 * function from the token text to its subject, which fails (None) on a bad
 * signature, a malformed token or an expired one.
 */
module Tokens {
  import opened Wrappers
  import opened JavaText
  import opened Tables
  import opened Models
  import DoctorRepo
  import Accounts

  /** Seven days, in milliseconds. */
  const TOKEN_LIFETIME_MILLIS: int := 7 * 24 * 60 * 60 * 1000

  /** The claims a token carries: its subject, when it was issued and when it
      stops being accepted (milliseconds since the epoch). */
  datatype Claims = Claims(subject: string, issuedAtMillis: int, expirationMillis: int)

  /** The answer to a login: an error status, or a token with the role and
      the display name sent back beside it. */
  datatype LoginReply = Rejected(code: int) | Issued(token: Claims, role: string, name: string)

  /** `generateToken`: the subject is the identifier, issued at the clock
      reading `nowMillis`, expiring exactly seven days later. */
  function GenerateToken(identifier: string, nowMillis: int): (c: Claims)
    ensures c.subject == identifier && c.issuedAtMillis == nowMillis
    ensures c.expirationMillis - c.issuedAtMillis == 604_800_000
  {
    Claims(identifier, nowMillis, nowMillis + TOKEN_LIFETIME_MILLIS)
  }

  /** `extractIdentifier`: the subject when the token parses; a null token
      fails like any other bad token. */
  function ExtractIdentifier(parse: string -> Option<string>, token: Option<string>): (r: Option<string>)
    ensures token.None? ==> r.None?
    ensures r.Some? ==> token.Some? && parse(token.value) == r
  {
    match token
    case None => None
    case Some(t) => parse(t)
  }

  /** Exactly one admin has that username. */
  predicate UniqueAdmin(admins: map<int, Admin>, username: string) {
    exists k :: k in admins && admins[k].username == username
      && forall j :: j in admins && admins[j].username == username ==> j == k
  }

  /** Exactly one doctor has that email. */
  predicate UniqueDoctor(doctors: map<int, Doctor>, email: string) {
    exists k :: k in doctors && doctors[k].email == email
      && forall j :: j in doctors && doctors[j].email == email ==> j == k
  }

  /** Exactly one patient has that email. */
  predicate UniquePatient(patients: map<int, Patient>, email: string) {
    exists k :: k in patients && patients[k].email == email
      && forall j :: j in patients && patients[j].email == email ==> j == k
  }

  /** The identifier names an account of the (lower-cased) role. */
  predicate IsAccountOf(role: string, identifier: string,
    admins: map<int, Admin>, doctors: map<int, Doctor>, patients: map<int, Patient>)
  {
    (role == "admin" && UniqueAdmin(admins, identifier))
    || (role == "doctor" && UniqueDoctor(doctors, identifier))
    || (role == "patient" && UniquePatient(patients, identifier))
  }

  /** The finder behind each role; any other role finds nothing. */
  function RoleLookup(role: string, identifier: string,
    admins: map<int, Admin>, doctors: map<int, Doctor>, patients: map<int, Patient>): (r: Lookup)
    ensures r.Found? <==> IsAccountOf(role, identifier, admins, doctors, patients)
  {
    if role == "admin" then
      FindUniqueFound(admins, (a: Admin) => Some(identifier) == Some(a.username));
      Accounts.FindAdminByUsername(admins, Some(identifier))
    else if role == "doctor" then
      FindUniqueFound(doctors, (d: Doctor) => Some(identifier) == Some(d.email));
      DoctorRepo.FindByEmail(doctors, Some(identifier))
    else if role == "patient" then
      FindUniqueFound(patients, (p: Patient) => Some(identifier) == Some(p.email));
      Accounts.FindPatientByEmail(patients, Some(identifier))
    else NotFound
  }

  /** `validateToken`: true exactly when the token yields an identifier, a
      role is given, and the identifier names one account of that role, the
      role compared ignoring case. A null role, an unknown role, a failed
      parse and a lookup that finds several rows (an exception the method
      catches) all give false. */
  function ValidateToken(parse: string -> Option<string>, token: Option<string>, userType: Option<string>,
    admins: map<int, Admin>, doctors: map<int, Doctor>, patients: map<int, Patient>): (ok: bool)
    ensures ok <==> (ExtractIdentifier(parse, token).Some? && userType.Some?
      && IsAccountOf(ToLower(userType.value), ExtractIdentifier(parse, token).value, admins, doctors, patients))
  {
    var identifier := ExtractIdentifier(parse, token);
    if identifier.None? || userType.None? then false
    else RoleLookup(ToLower(userType.value), identifier.value, admins, doctors, patients).Found?
  }

  /** A token whose subject has no account in the role's table is refused,
      whatever the role's spelling. */
  lemma NoAccountNoAccess(parse: string -> Option<string>, token: Option<string>, userType: string,
    admins: map<int, Admin>, doctors: map<int, Doctor>, patients: map<int, Patient>)
    requires ExtractIdentifier(parse, token).Some?
    requires var id := ExtractIdentifier(parse, token).value;
      (forall k :: k in admins ==> admins[k].username != id)
      && (forall k :: k in doctors ==> doctors[k].email != id)
      && (forall k :: k in patients ==> patients[k].email != id)
    ensures !ValidateToken(parse, token, Some(userType), admins, doctors, patients)
  {
  }
}

=== FILE: wrappers.dfy ===
/** A Java reference that may be null, as a value that may be absent. */
module Wrappers {

  datatype Option<+T> = None | Some(value: T) {

    /** The value, or `default` when absent (Java's `x == null ? default : x`). */
    function GetOr(default: T): T {
      match this
      case Some(v) => v
      case None => default
    }
  }
}
